=== FILE: README.md ===
# Language Forge ⇄ Chorus notes bridge, in Dafny

This project models the two FLExBridge handlers that keep Language Forge
comments and Chorus notes in step:

- **LanguageForgeWriteToChorusNotes** takes a batch of `(ObjectId, comment)`
  pairs and writes them into the project's Chorus notes. It does three things:
  - It puts the primary repository (`Lexicon.fwstub.ChorusNotes`) first, and
    creates it when the project has none.
  - It indexes every annotation of every repository by guid. A repeated guid
    keeps the last annotation.
  - It processes each comment in turn:
    - a null or deleted comment is skipped;
    - a comment whose guid the index knows has its missing replies appended to
      that annotation;
    - any other comment becomes a new annotation of the primary repository.
  - After a comment's replies, the annotation's status is brought in line
    with the comment's, with a blank status counting as open.
  - Two tables are filled as the loop runs: comment ObjectId → annotation guid,
    and reply UniqId → message guid. Both are reported as `key=value;…` text.
- **LanguageForgeGetChorusNotes** exports Chorus notes to Language Forge.
  - An annotation whose guid Language Forge does not know becomes a new
    comment. Its first message is the comment body, and its later non-blank
    messages are its replies.
  - An annotation Language Forge knows contributes only the later non-blank
    messages whose guids Language Forge has not seen yet.

## Layout

| file | module | contents |
|---|---|---|
| `wrappers.dfy` | `Wrappers` | `Option` |
| `text.dfy` | `Text` | nullable strings, `IsNullOrEmpty`, `IsNullOrWhiteSpace`, `Join`, `Split` |
| `seqs.dfy` | `Seqs` | the LINQ operators used (`Where`, `Select`, `Skip(1)`), the last-wins index |
| `mappings.dfy` | `IdMappings` | the `Dictionary<string, string>` tables (class `StringDictionary`) and their `key=value;…` report |
| `chorus_notes.dfy` | `ChorusNotes` | the Chorus store: `Annotation` and `AnnotationRepository` classes; the `Oracle` for fresh guids and the clock |
| `lf_records.dfy` | `LfRecords` | the Language Forge comment and reply records |
| `write_spec.dfy` | `WriteSpec` | the write handler as functions on annotation states: helpers, one step of the main loop, the whole run |
| `write_properties.dfy` | `WriteProperties` | what the write handler guarantees, proved of `WriteSpec` |
| `write_handler.dfy` | `WriteHandler` | the write handler as the imperative program it is, proved to compute `WriteSpec.Run` |
| `get_handler.dfy` | `GetHandler` | the export loop and its specification |
| `round_trip.dfy` | `NotesRoundTrip` | the two handlers together |

Modelling choices:

- **Null strings.** A .NET `string` that may be null is `Option<string>`, with
  `None` standing for null.
- **Fresh guids and the clock.** `Guid.NewGuid` and `DateTime.Now` are an
  oracle. The n-th fresh guid of a run is `stream(n)`, and everything a run
  creates is stamped `now`.
- **Guid parsing.** `Guid.TryParse` is a parameter `parse`, which gives the
  canonical text of a guid or nothing.
- **Mapping tables.** A dictionary is an insertion-ordered list of entries.
  The indexer `d[k] = v` overwrites an existing key in place and appends a
  new one, as the report's enumeration order requires.
- **Write handler.** It is proved in two layers:
  - `WriteSpec` says what a run computes over annotation states;
  - the methods of `WriteHandler` change the annotation objects, the
    repository array and the dictionaries in place, and are proved to agree
    with it.
- **Get handler.** It only reads the store. It is modelled on annotation
  states, with the export loop as a method proved against the functions
  `NewComments` and `NewReplies`.

## Model

Source paths are relative to the repository root.

| member | source | states |
|---|---|---|
| ChorusNotes.Oracle.NewGuid | src/LfMergeBridge/LanguageForgeWriteToChorusNotesActionHandler.cs:271 | The guid drawn is the next one of the oracle's stream, and the oracle moves on by one. |
| ChorusNotes.Annotation.constructor | src/LfMergeBridge/LanguageForgeWriteToChorusNotesActionHandler.cs:282 | A new annotation has the given class, reference and guid, no status and no messages. |
| ChorusNotes.Annotation.AddMessage | src/LfMergeBridge/LanguageForgeWriteToChorusNotesActionHandler.cs:190 | One message, with a fresh guid and the given author, status and text, is appended after the existing thread. The annotation's status becomes the given one (modelling assumption). |
| ChorusNotes.Annotation.SetStatus | src/LfMergeBridge/LanguageForgeWriteToChorusNotesActionHandler.cs:207 | A status change is recorded as one more message: it has the given author and status, empty text and the next fresh guid. The annotation's status becomes the given one, and the oracle moves on by one (modelling assumption, following the comment at lines 198-199). |
| ChorusNotes.AnnotationRepository.AddAnnotation | src/LfMergeBridge/LanguageForgeWriteToChorusNotesActionHandler.cs:130 | The annotation is appended to the repository's annotations. |
| IdMappings.StringDictionary.SetItem | src/LfMergeBridge/LanguageForgeWriteToChorusNotesActionHandler.cs:171 | The loop's new entries are exactly those of `Assign`, the indexer assignment. |
| IdMappings.AssignSpec | src/LfMergeBridge/LanguageForgeWriteToChorusNotesActionHandler.cs:193 | After `d[k] = v`, `k` holds `v` and every other key keeps its value. A repeated key overwrites in place and keeps its position; a new key adds one entry. Keys stay unique. |
| IdMappings.AssignAllLookup | src/LfMergeBridge/LanguageForgeWriteToChorusNotesActionHandler.cs:87-88 | After a run of assignments, each key holds the value of its last assignment, and untouched keys keep their old values. |
| IdMappings.FormatParse | src/LfMergeBridge/LanguageForgeWriteToChorusNotesActionHandler.cs:134-137 | The `key=value` pairs joined by `;` determine the table: splitting at `;` and then at the first `=` gives it back. This holds when keys contain neither `;` nor `=` and values contain no `;`. |
| WriteSpec.MappingReportReadBack | src/LfMergeBridge/LanguageForgeWriteToChorusNotesActionHandler.cs:134-137 | The two closing progress lines carry their labels, and what follows each label parses back to the comment table and the reply table respectively. This holds when both tables are `Plain`: keys contain neither `;` nor `=`, and values contain no `;`. |
| WriteSpec.LfStatusToChorusStatus | src/LfMergeBridge/LanguageForgeWriteToChorusNotesActionHandler.cs:150-160 | The result is Closed exactly when the status is Resolved, and Open exactly otherwise (null included). |
| WriteSpec.FlexRefRoundTrip | src/LfMergeBridge/LanguageForgeWriteToChorusNotesActionHandler.cs:287-290 | The link MakeFlexRefURL builds gives back the owner guid and the label, provided the guid has no `&`. A null argument shows as empty. |
| WriteSpec.NewAnnotation | src/LfMergeBridge/LanguageForgeWriteToChorusNotesActionHandler.cs:264-285 | The guid rule: a parsable, non-zero incoming guid is kept; otherwise a fresh one is drawn, and the result is not the zero guid when the oracle never yields it. The annotation has exactly one message, holding the content, and its status and the message's are the mapped status. Its class is `note`. A null or empty author becomes `Language Forge`, and any other author is kept. The reference is the FLEx link `MakeFlexRefURL` builds from the owner guid and word. The oracle moves on by one or two. |
| WriteSpec.MakeFlexRefURL | src/LfMergeBridge/LanguageForgeWriteToChorusNotesActionHandler.cs:287-290 | Builds the FLEx link `silfw://localhost/link?app=flex&database=current&server=&tool=default&guid=G&tag=&id=G&label=L` from the owner guid and word; null shows as empty. `FlexRefRoundTrip` states that guid and label can be read back. |
| WriteSpec.OwnerGuid | src/LfMergeBridge/LanguageForgeWriteToChorusNotesActionHandler.cs:110 | The owner guid is the target guid of `Regarding`, or empty when `Regarding` is null. `NewAnnotationLink` states its use. |
| WriteSpec.OwnerShortName | src/LfMergeBridge/LanguageForgeWriteToChorusNotesActionHandler.cs:111 | The owner word is the word of `Regarding`, or `???` when `Regarding` is null. `NewAnnotationLink` states its use. |
| WriteSpec.AppendReplies | src/LfMergeBridge/LanguageForgeWriteToChorusNotesActionHandler.cs:183-196 | The reply loop as a fold over the comment's replies. `AppendRepliesThread`, `AppendRepliesIssued`, `AppendRepliesStatus`, `AppendRepliesIds` and `AppendRepliesNone` state its effect. |
| WriteSpec.MergeReplies | src/LfMergeBridge/LanguageForgeWriteToChorusNotesActionHandler.cs:162-209 | `SetChorusAnnotationMessagesFromLfReplies` on states: the ObjectId entry, the reply loop, then the status reconciliation. `MergeRepliesSpec`, `ReplylessCommentKeepsStatus` and `MergeRepliesRerun` state its effect. |
| WriteSpec.MergeStep | src/LfMergeBridge/LanguageForgeWriteToChorusNotesActionHandler.cs:113-121 | A matched comment: `MergeReplies` on the annotation the index finds, and its log line. `StepMatched` states its effect. |
| WriteSpec.CreateStep | src/LfMergeBridge/LanguageForgeWriteToChorusNotesActionHandler.cs:122-131 | An unmatched live comment: `NewAnnotation`, then `MergeReplies`, appended to the created annotations, and its log line. Existing annotations stay as they are, and exactly one annotation is created; `StepUnmatched` states the rest. |
| WriteSpec.StepComment | src/LfMergeBridge/LanguageForgeWriteToChorusNotesActionHandler.cs:90-132 | One turn of the main loop: a log line for a null or deleted comment, else `MergeStep` or `CreateStep` as the index decides. The existing annotations stay as many. `StepSkipped`, `StepMatched` and `StepUnmatched` state each case. |
| WriteSpec.MergeAll | src/LfMergeBridge/LanguageForgeWriteToChorusNotesActionHandler.cs:90-132 | The main loop as a fold of `StepComment` over the batch with the index built once. `MergeAllSpec` and `IndexNotRefreshed` state its effect. |
| WriteSpec.Run | src/LfMergeBridge/LanguageForgeWriteToChorusNotesActionHandler.cs:76-137 | The whole write: the guid index, then `MergeAll` from empty tables. `WriteHandler.StartWorking` is proved to compute it. |
| WriteSpec.StatusWrite | src/LfMergeBridge/LanguageForgeWriteToChorusNotesActionHandler.cs:200-208 | A status is written exactly when the current status does not already mean the target (blank means Open), and what is written is the target. |
| WriteSpec.AppendedReplies | src/LfMergeBridge/LanguageForgeWriteToChorusNotesActionHandler.cs:183-188 | Every appended reply is one of the comment's replies, is not deleted, and its guid is not among the existing ones. |
| WriteSpec.GuidIndex | src/LfMergeBridge/LanguageForgeWriteToChorusNotesActionHandler.cs:76-80 | Every annotation's guid is a key. Each key leads to an annotation with that guid, at a position no earlier than any other annotation with the same guid (the last one wins). |
| WriteProperties.NewAnnotationLink | src/LfMergeBridge/LanguageForgeWriteToChorusNotesActionHandler.cs:110-111 | A new annotation's link names the comment's owner guid and word. When `Regarding` is null it names `""` and `"???"`. This holds when the owner guid contains no `&`. |
| WriteProperties.AppendedRepliesKeeps | src/LfMergeBridge/LanguageForgeWriteToChorusNotesActionHandler.cs:183-188 | Every reply that is neither deleted nor already present is appended. |
| WriteProperties.AppendRepliesThread | src/LfMergeBridge/LanguageForgeWriteToChorusNotesActionHandler.cs:183-196 | The reply loop leaves the existing thread intact. It appends one message per appendable reply, in input order, each with the next fresh guid, the reply's author and content, and the mapped status. The oracle moves on by the number appended. |
| WriteProperties.AppendRepliesIssued | src/LfMergeBridge/LanguageForgeWriteToChorusNotesActionHandler.cs:190 | One fresh guid is drawn per appended reply. |
| WriteProperties.AppendRepliesStatus | src/LfMergeBridge/LanguageForgeWriteToChorusNotesActionHandler.cs:190 | After the reply loop, the status is the mapped status if anything was appended, and unchanged otherwise. |
| WriteProperties.AppendRepliesIds | src/LfMergeBridge/LanguageForgeWriteToChorusNotesActionHandler.cs:191-195 | The UniqId table receives exactly one pair for each appended reply that had a null, empty or zero guid and a non-empty UniqId. The pair holds that reply's new message guid, and pairs are assigned in order. |
| WriteProperties.AppendRepliesNone | src/LfMergeBridge/LanguageForgeWriteToChorusNotesActionHandler.cs:183-188 | When no reply is appendable, the loop changes nothing. |
| WriteProperties.NothingAppendedWhenAllPresent | src/LfMergeBridge/LanguageForgeWriteToChorusNotesActionHandler.cs:179-188 | If every live reply's guid is already present, nothing is appended. |
| WriteProperties.SameNewGuidAppendedTwice | src/LfMergeBridge/LanguageForgeWriteToChorusNotesActionHandler.cs:179-190 | The set of present guids is computed once, so two new replies with the same guid are both appended. |
| WriteProperties.MergeRepliesSpec | src/LfMergeBridge/LanguageForgeWriteToChorusNotesActionHandler.cs:162-209 | The annotation's identity never changes. The ObjectId entry is recorded exactly when the comment's guid is blank and its ObjectId is not, even without replies. Without replies nothing else changes. With replies, the appendable ones are appended as above, the status ends up meaning the mapped status, and a SetStatus write happens exactly when nothing was appended and the current status did not already mean it. That write appends one blank `StatusMessage` by `Language Forge` with the next fresh guid, so the oracle moves on by the number of appended replies plus one for a status write. |
| WriteProperties.MergeRepliesStatusOnly | src/LfMergeBridge/LanguageForgeWriteToChorusNotesActionHandler.cs:197-208 | A comment whose replies are all present already changes only the status. A write happens exactly when the current status does not already mean the comment's. That write is the thread's only new message and the only fresh guid drawn, and the UniqId table is untouched. |
| WriteProperties.ReplylessCommentKeepsStatus | src/LfMergeBridge/LanguageForgeWriteToChorusNotesActionHandler.cs:174-177 | A comment without replies never changes the annotation's status, whatever its own status is. |
| WriteProperties.MergeRepliesRerun | src/LfMergeBridge/LanguageForgeWriteToChorusNotesActionHandler.cs:179-208 | Merging again a comment with the same status, whose live replies are all present now, changes nothing: no message, no table entry, no fresh guid, no status write. The premise holds only after Language Forge has applied the reported guid mappings (see "## Left out"). |
| WriteProperties.SentinelReplyAlwaysAppended | src/LfMergeBridge/LanguageForgeWriteToChorusNotesActionHandler.cs:179-188 | A live reply whose guid is null, empty or all zeros is appended whatever the thread holds, because such guids never enter the known set. |
| WriteProperties.MergeOneReply | src/LfMergeBridge/LanguageForgeWriteToChorusNotesActionHandler.cs:183-190 | Merging a comment whose one reply is appendable appends exactly that reply's message, with the next fresh guid and the mapped status. |
| WriteProperties.MergeRepliesTwiceAppendsTwice | src/LfMergeBridge/LanguageForgeWriteToChorusNotesActionHandler.cs:183-190 | Merging the same comment twice appends its reply twice when the reply has no real guid, or has a real guid that the thread lacks and the oracle does not draw. The written message carries a fresh guid, never the reply's own. |
| WriteProperties.StepSkipped | src/LfMergeBridge/LanguageForgeWriteToChorusNotesActionHandler.cs:94-107 | A null or deleted comment only adds its line to the log. No annotation, message, table entry or guid is touched. |
| WriteProperties.StepMatched | src/LfMergeBridge/LanguageForgeWriteToChorusNotesActionHandler.cs:113-121 | A comment whose guid the index knows creates no annotation. It only extends the annotation the index finds: same identity, old messages kept as a prefix. Every other annotation is untouched. |
| WriteProperties.StepUnmatched | src/LfMergeBridge/LanguageForgeWriteToChorusNotesActionHandler.cs:122-131 | Any other live comment leaves the existing annotations untouched. It adds exactly one annotation, after the ones created before. That annotation is `MergeReplies` applied to what `NewAnnotation` builds, so it extends it with the comment's replies. |
| WriteProperties.MergeAllSpec | src/LfMergeBridge/LanguageForgeWriteToChorusNotesActionHandler.cs:90-132 | Over a batch: one log line per comment, and one new annotation per live comment the index does not know. Annotations present before the run keep their identity and thread and only gain messages at the end. |
| WriteProperties.IndexNotRefreshed | src/LfMergeBridge/LanguageForgeWriteToChorusNotesActionHandler.cs:113-131 | The index is not updated inside the loop. Two live comments with the same new guid both create an annotation, and both annotations carry that guid. |
| WriteHandler.FirstPrimary | src/LfMergeBridge/LanguageForgeWriteToChorusNotesActionHandler.cs:222 | The result is the first repository whose path contains `Lexicon.fwstub.ChorusNotes`, or -1 when none does. |
| WriteHandler.FindPrimaryIndex | src/LfMergeBridge/LanguageForgeWriteToChorusNotesActionHandler.cs:222 | The search loop returns `FirstPrimary` of the array. |
| WriteHandler.ReorderedSpec | src/LfMergeBridge/LanguageForgeWriteToChorusNotesActionHandler.cs:231-242 | With a primary repository at `idx`, only slots 0 and `idx` trade places: the primary comes first, and the repositories are a permutation of the input. Without a primary, nothing moves. |
| WriteHandler.PrimaryNotesPathIsPrimary | src/LfMergeBridge/LanguageForgeWriteToChorusNotesActionHandler.cs:248-250 | The notes file made for a new primary repository is recognised as the primary one. |
| WriteHandler.MakePrimaryAnnotationRepository | src/LfMergeBridge/LanguageForgeWriteToChorusNotesActionHandler.cs:246-251 | The result is a new, empty repository for the primary notes file. |
| WriteHandler.GetAnnotationRepositories | src/LfMergeBridge/LanguageForgeWriteToChorusNotesActionHandler.cs:211-244 | The primary repository is always first. Without a primary, a new empty one is put in front of the unchanged list; this includes the empty project, which gets just the new one. With a primary, the input array itself is returned, reordered by `Reordered`. |
| WriteHandler.ArrangeRepositories | src/LfMergeBridge/LanguageForgeWriteToChorusNotesActionHandler.cs:211-244 | As GetAnnotationRepositories. In addition, the annotations seen afterwards are the project's own, in handler order, unchanged and distinct. |
| WriteHandler.BuildIndex | src/LfMergeBridge/LanguageForgeWriteToChorusNotesActionHandler.cs:76-80 | The dictionary maps every guid of every repository's annotations to the last annotation with that guid. |
| WriteHandler.IndexAnnotations | src/LfMergeBridge/LanguageForgeWriteToChorusNotesActionHandler.cs:77-79 | Filing one repository's annotations keeps the last-wins property over everything seen so far. |
| WriteHandler.ChooseGuid | src/LfMergeBridge/LanguageForgeWriteToChorusNotesActionHandler.cs:266-277 | The guid chosen and the oracle's new position are those of `AnnotationGuid`: keep a parsable non-zero guid, or draw a new one. |
| WriteHandler.CreateAnnotation | src/LfMergeBridge/LanguageForgeWriteToChorusNotesActionHandler.cs:264-285 | The new annotation object holds exactly `NewAnnotation`'s state, and the oracle is where `NewAnnotation` leaves it. Class `note`, the generic author and the guid rule carry over. |
| WriteHandler.AppendLfReplies | src/LfMergeBridge/LanguageForgeWriteToChorusNotesActionHandler.cs:183-196 | The in-place reply loop leaves the annotation, the UniqId table and the oracle as `AppendReplies` says. |
| WriteHandler.ReconcileStatus | src/LfMergeBridge/LanguageForgeWriteToChorusNotesActionHandler.cs:200-208 | Nothing changes when `StatusWrite` says no write is needed. Otherwise the status becomes the target, one blank status message with the next fresh guid is appended, and the oracle moves on by one. |
| WriteHandler.SetChorusAnnotationMessagesFromLfReplies | src/LfMergeBridge/LanguageForgeWriteToChorusNotesActionHandler.cs:162-209 | The annotation, both tables and the oracle end as `MergeReplies` says. |
| WriteHandler.MergeIntoExisting | src/LfMergeBridge/LanguageForgeWriteToChorusNotesActionHandler.cs:114-121 | The objects, tables and oracle hold the state `MergeStep` gives, and the log line is the one `MergeStep` records. |
| WriteHandler.AddNewAnnotation | src/LfMergeBridge/LanguageForgeWriteToChorusNotesActionHandler.cs:122-131 | A new annotation is appended to the primary repository. The objects, tables and oracle hold the state `CreateStep` gives. |
| WriteHandler.MergeLiveComment | src/LfMergeBridge/LanguageForgeWriteToChorusNotesActionHandler.cs:113-131 | A live comment leaves the store in the state `StepComment` gives, appending at most one new annotation to the primary repository. |
| WriteHandler.ProcessComment | src/LfMergeBridge/LanguageForgeWriteToChorusNotesActionHandler.cs:90-132 | One turn of the main loop is one step of the specification, including the skip cases. |
| WriteHandler.MergeLoop | src/LfMergeBridge/LanguageForgeWriteToChorusNotesActionHandler.cs:90-132 | After the loop, the objects, tables, oracle and log are the fold of the specification's step over the batch. The primary repository gained exactly the annotations created. |
| WriteHandler.MergeComments | src/LfMergeBridge/LanguageForgeWriteToChorusNotesActionHandler.cs:76-132 | The index plus the main loop compute exactly `Run` over the states the annotations had before. New annotations go only to the first repository. |
| WriteHandler.StartWorking | src/LfMergeBridge/LanguageForgeWriteToChorusNotesActionHandler.cs:46-140 | The whole handler, from the loaded repositories: they end in handler order with the primary first; every annotation object ends as `Run` says; the new annotations are in the primary repository; the log is `Run`'s; and the two closing lines report `Run`'s tables. The lemmas of `WriteProperties` characterise `Run`. |
| GetHandler.ChorusStatusToLfStatus | src/LfMergeBridge/LanguageForgeGetChorusNotesActionHandler.cs:134-144 | The result is Resolved exactly when the status is Closed, and Open exactly otherwise (null included). |
| GetHandler.Export | src/LfMergeBridge/LanguageForgeGetChorusNotesActionHandler.cs:55-101 | The loop builds `NewComments` and `NewReplies` over the non-null comment guids and reply guids of the input. |
| GetHandler.ReplyFromChorusMsg | src/LfMergeBridge/LanguageForgeGetChorusNotesActionHandler.cs:111-124 | A message as a Language Forge reply: same guid, author, text and dates, not deleted, no UniqId. `ReplyRoundTrip` states what survives a write back. |
| GetHandler.LaterNonBlank | src/LfMergeBridge/LanguageForgeGetChorusNotesActionHandler.cs:68-69 | The later non-blank messages, `Skip(1).Where(...)`. `LaterNonBlankSpec` and `LaterNonBlankOrder` state what it keeps and in what order. |
| GetHandler.ReplyPositions | src/LfMergeBridge/LanguageForgeGetChorusNotesActionHandler.cs:68-69 | The positions of the messages exported as replies. Each lies after the first message and inside the thread. |
| GetHandler.ReplyPositionsSpec | src/LfMergeBridge/LanguageForgeGetChorusNotesActionHandler.cs:68-69 | The reply positions are strictly ascending, each holds a message whose text is not blank, and every later non-blank message's position is among them. |
| GetHandler.RepliesNotYetInLf | src/LfMergeBridge/LanguageForgeGetChorusNotesActionHandler.cs:65-72 | A known comment's new replies. `RepliesNotYetInLfSpec` states which messages it keeps. |
| GetHandler.CommentFromAnnotation | src/LfMergeBridge/LanguageForgeGetChorusNotesActionHandler.cs:78-98 | An annotation as a new Language Forge comment. `NewCommentRepliesSpec`, `NewCommentRoundTrip` and `NewCommentRecreates` state its properties. |
| GetHandler.NewComments | src/LfMergeBridge/LanguageForgeGetChorusNotesActionHandler.cs:78-100 | The new-comment list the loop builds. `NewCommentsAreSelected` and `NewCommentsSpec` characterise it. |
| GetHandler.NewReplies | src/LfMergeBridge/LanguageForgeGetChorusNotesActionHandler.cs:62-77 | The list of new-reply pairs the loop builds. `NewRepliesAreSelected` and `NewRepliesSpec` characterise it. |
| GetHandler.LaterNonBlankSpec | src/LfMergeBridge/LanguageForgeGetChorusNotesActionHandler.cs:68-69 | The messages seen as replies are exactly those after the first whose text is not null or whitespace. |
| GetHandler.LaterNonBlankOrder | src/LfMergeBridge/LanguageForgeGetChorusNotesActionHandler.cs:68-69 | Message order and multiplicity are kept. The i-th reply is the message at the i-th of `ReplyPositions`, the ascending positions after the first whose text is not blank. |
| GetHandler.RepliesNotYetInLfSpec | src/LfMergeBridge/LanguageForgeGetChorusNotesActionHandler.cs:65-72 | A known comment's new replies are exactly the later, non-blank messages whose guid is not a known reply guid, each converted by ReplyFromChorusMsg. |
| GetHandler.NewCommentRepliesSpec | src/LfMergeBridge/LanguageForgeGetChorusNotesActionHandler.cs:91 | A new comment's replies are every later non-blank message, whatever its guid; no known-reply filter applies. They come in thread order, once each: the i-th reply is `ReplyFromChorusMsg` of the message at the i-th of `ReplyPositions`. |
| GetHandler.NewCommentsAreSelected | src/LfMergeBridge/LanguageForgeGetChorusNotesActionHandler.cs:78-100 | The new comments are the annotations with unknown guids, in enumeration order, each converted. |
| GetHandler.NewRepliesAreSelected | src/LfMergeBridge/LanguageForgeGetChorusNotesActionHandler.cs:62-77 | The `(guid, replies)` pairs come from the known annotations that have at least one new reply, in enumeration order. |
| GetHandler.NewCommentsSpec | src/LfMergeBridge/LanguageForgeGetChorusNotesActionHandler.cs:60-101 | A new comment comes from an annotation with an unknown guid. Every annotation with an unknown guid gives one. |
| GetHandler.NewRepliesSpec | src/LfMergeBridge/LanguageForgeGetChorusNotesActionHandler.cs:60-77 | A pair comes from a known annotation with non-empty new replies. Every such annotation gives one. |
| GetHandler.ExportIsNew | src/LfMergeBridge/LanguageForgeGetChorusNotesActionHandler.cs:55-76 | No exported comment has the guid of an input comment, and no reply exported for a known comment has the guid of an input reply. |
| NotesRoundTrip.LfStatusRoundTrip | src/LfMergeBridge/LanguageForgeGetChorusNotesActionHandler.cs:134-144 | A Language Forge status written to Chorus and read back is Resolved exactly when it was Resolved, and Open otherwise. |
| NotesRoundTrip.ChorusStatusRoundTrip | src/LfMergeBridge/LanguageForgeWriteToChorusNotesActionHandler.cs:150-160 | A Chorus status read by Language Forge and written back is Closed exactly when it was Closed, and Open otherwise. |
| NotesRoundTrip.ReplyRoundTrip | src/LfMergeBridge/LanguageForgeGetChorusNotesActionHandler.cs:111-124 | A message exported as a reply and written back as a message keeps its author and text. Only the guid, status and date are new. |
| NotesRoundTrip.ExportedRepliesPresent | src/LfMergeBridge/LanguageForgeWriteToChorusNotesActionHandler.cs:179-188 | Replies exported from an annotation's messages, sent back to that annotation, append nothing. This holds when every message has a real guid, i.e. none is null, empty or all zeros (`GuidsAreReal`). |
| NotesRoundTrip.KnownRepliesRoundTrip | src/LfMergeBridge/LanguageForgeGetChorusNotesActionHandler.cs:65-72 | A known comment's new replies, sent back to their annotation, append nothing, when every message has a real guid (`GuidsAreReal`). |
| NotesRoundTrip.NewCommentRoundTrip | src/LfMergeBridge/LanguageForgeGetChorusNotesActionHandler.cs:80-98 | The annotation's guid is not empty and every message has a real guid (`GuidsAreReal`). Then a new comment sent back to its annotation appends no reply and leaves the tables alone. Without replies it changes nothing at all. With replies, the status still means Closed exactly when it was Closed. A status other than closed, open or blank (`SettledStatus`) is rewritten as Open, which appends one blank status message and draws one fresh guid. Otherwise the thread and the oracle stay as they were. |
| NotesRoundTrip.SettledIsEquivalent | src/LfMergeBridge/LanguageForgeWriteToChorusNotesActionHandler.cs:200-204 | A Chorus status read by Language Forge and written back needs no status write exactly when it was closed, open or blank. |
| NotesRoundTrip.StatusMessageNotExported | src/LfMergeBridge/LanguageForgeGetChorusNotesActionHandler.cs:68-69 | The blank message a status write appends is never exported as a reply: the later non-blank messages are those of the thread without it. |
| NotesRoundTrip.NewCommentRecreates | src/LfMergeBridge/LanguageForgeWriteToChorusNotesActionHandler.cs:264-285 | A new comment written to a project without its annotation re-creates it. The guid is the same (when it parses to itself and is not zero), and so is the first text. The status is Closed exactly when it was. A non-blank author is kept. The link names what the reference reader found. The class is `note`, and a blank author comes back as `Language Forge`. |

## Left out

- **File and JSON I/O.** Reading the input file, decoding the JSON, and serialising the two export lists are left out. Inputs and outputs are Dafny values. `DecodeInputFile`, called by the export handler, is not defined in the write handler and is not part of this model.
- **Chorus repository mechanics.** Loading repositories from the project folder (`CreateRepositoriesFromFolder`), `SaveReposIfNeeded` and creating the stub file are left out.
  - The loaded repositories are a parameter of `WriteHandler.StartWorking`.
  - The new primary repository's path is modelled as the project folder, `/`, and `Lexicon.fwstub.ChorusNotes`, on the assumption that Chorus adds the notes extension to the stub's name.
- **Store assumptions.** Repositories loaded from different notes files are assumed to share no annotation object (`WriteHandler.Separate`).
- **Chorus internals.** `AddMessage` and `SetStatus` are Chorus code. The model assumes:
  - `AddMessage(author, status, text)` appends one message with a fresh guid and sets the annotation's status to `status`;
  - `SetStatus(author, status)` is `AddMessage(author, status, "")`: it appends one message with empty text and a fresh guid. The comment at src/LfMergeBridge/LanguageForgeWriteToChorusNotesActionHandler.cs:198-199 says that changing the status adds a blank message. The thread and oracle equations of `WriteProperties.MergeRepliesSpec`, `NotesRoundTrip.NewCommentRoundTrip`, `WriteHandler.ReconcileStatus` and everything proved through `MergeReplies` rest on this assumption.
- **WriteProperties.MergeRepliesRerun:** a rerun appends nothing only once Language Forge has applied the reported guid mappings to its replies. The handler writes each reply as a message with a fresh guid, not the reply's own (`MergeRepliesTwiceAppendsTwice`), so an unchanged input merged again appends its new replies again. Two cases never settle, because no mapping is reported for them (src/LfMergeBridge/LanguageForgeWriteToChorusNotesActionHandler.cs:191-193), and they are appended on every run:
  - a live reply with a null, empty or zero guid and no UniqId;
  - a reply whose real guid the thread lacks.
  Likewise, a comment whose guid is null, empty, zero or does not parse never matches the index, so each rerun creates another annotation for it (`WriteProperties.StepUnmatched`), until its ObjectId mapping is applied.
- **Real guids in Chorus data.** `NotesRoundTrip.ExportedRepliesPresent`, `KnownRepliesRoundTrip` and `NewCommentRoundTrip` assume `GuidsAreReal`: the annotation's guid is not empty, and no message guid is null, empty or all zeros. This is an assumption about the notes files, not something the handlers check. Without it, the write handler leaves such a message guid out of its known set (src/LfMergeBridge/LanguageForgeWriteToChorusNotesActionHandler.cs:179). A message exported with such a guid (src/LfMergeBridge/LanguageForgeGetChorusNotesActionHandler.cs:91) would then be appended again on every write back.
- **Fresh guids.** `Guid.NewGuid` is the oracle's stream. That it never yields an empty or zero guid is an assumption (`ChorusNotes.NeverSentinel`), used only where stated.
- **The export handler's reference reading.** It reads an annotation's reference through `UrlHelper.GetValueFromQueryStringOfRef` and `LabelOfThingAnnotated`, which are Chorus code. Here they are the two functions of a `RefReader` parameter.
  - No round trip through the escaped reference is claimed.
  - `ExtractGuidFromChorusRef` also loads the repositories again and ignores the result; that load is left out.
- **Export store.** The export handler reads annotations through `GetAllAnnotations`, which is modelled as a sequence of annotation states in enumeration order. Since it changes nothing, no objects are modelled there.
- **Option parsing, progress and disposal.** Option parsing (`-p`, project name and folder), the progress object and `Dispose` are left out.
  - The write handler's progress text is kept as structured `Outcome` lines, not formatted strings.
  - Only the two mapping lines are modelled as text.
- **Dates.** Dates are opaque values that are copied, never compared. Local versus UTC time is not modelled.
- **`Closed` constants.** The export handler compares against `SerializableChorusAnnotation.Closed`, which is defined as Chorus's `Annotation.Closed`. Both are the one constant `ChorusNotes.Closed` here.
- **Null list elements and null guids.** Comments, replies and annotations are Dafny values, and an annotation's guid is a plain `string`. Four .NET failures on null are therefore not modelled:
  - a null comment element in the export handler's input (`comment.Guid`, src/LfMergeBridge/LanguageForgeGetChorusNotesActionHandler.cs:55);
  - a null reply element there (`reply.Guid`, src/LfMergeBridge/LanguageForgeGetChorusNotesActionHandler.cs:56);
  - a null reply element in a comment written back (`reply.IsDeleted`, src/LfMergeBridge/LanguageForgeWriteToChorusNotesActionHandler.cs:185);
  - the `ArgumentNullException` that the guid index throws for an annotation with a null guid (`chorusAnnotationsByGuid[ann.Guid]`, src/LfMergeBridge/LanguageForgeWriteToChorusNotesActionHandler.cs:79).
- **IdMappings.FormatParse:** it holds only for keys without `;` and `=` and values without `;`. Object ids, UniqIds and guids have this form, but the source does not check it.
- **WriteSpec.FlexRefRoundTrip:** it holds only when the owner guid contains no `&`. The source builds the link without escaping.

=== FILE: chorus_notes.dfy ===
/**
 * The part of the Chorus notes store the handlers touch: annotations holding
 * an ordered message thread, and repositories (one per notes file) holding
 * annotations.  Chorus itself is not part of this model; what its methods do
 * here is stated as assumptions in their contracts.
 */
module ChorusNotes {
  import opened Wrappers
  import opened Text
  import Seqs

  /** `Chorus.notes.Annotation.Open` and `.Closed`. */
  const Open: string := "open"
  const Closed: string := "closed"

  /** Dates are carried along, never inspected. */
  datatype Date = Date(ticks: int)

  /** One message of an annotation's thread. */
  datatype Message = Message(guid: NString, author: NString, status: NString, text: NString, date: Date)

  /** What an annotation holds at one moment. */
  datatype AnnotationState = AnnotationState(
    className: string,
    refUrl: string,
    guid: string,
    date: Date,
    status: NString,
    messages: seq<Message>)

  /**
   * `Guid.NewGuid()` and `DateTime.Now`, as an oracle: the n-th fresh guid a
   * run asks for is `stream(n)`, and everything a run creates is stamped `now`.
   */
  class Oracle {
    const stream: nat -> string
    const now: Date
    var issued: nat

    constructor (stream: nat -> string, now: Date)
      ensures this.stream == stream && this.now == now && issued == 0
    {
      this.stream := stream;
      this.now := now;
      issued := 0;
    }

    method NewGuid() returns (g: string)
      modifies this
      ensures g == stream(old(issued)) && issued == old(issued) + 1
    {
      g := stream(issued);
      issued := issued + 1;
    }
  }

  /** The oracle never hands out an empty or all-zero guid, as `Guid.NewGuid` does not. */
  ghost predicate NeverSentinel(stream: nat -> string, zero: string) {
    forall n: nat :: stream(n) != "" && stream(n) != zero
  }

  /** A Chorus annotation; its guid, reference and class never change. */
  class Annotation {
    const className: string
    const refUrl: string
    const guid: string
    const date: Date
    var status: NString
    var messages: seq<Message>

    function State(): AnnotationState
      reads this
    {
      AnnotationState(className, refUrl, guid, date, status, messages)
    }

    /** `new Annotation(className, refUrl, guid, path)`, whose path argument Chorus ignores: no messages yet, dated `now`. */
    constructor (className: string, refUrl: string, guid: string, now: Date)
      ensures State() == AnnotationState(className, refUrl, guid, now, None, [])
    {
      this.className, this.refUrl, this.guid, date := className, refUrl, guid, now;
      status, messages := None, [];
    }

    /**
     * `AddMessage(author, status, text)`: appends a message with a fresh guid.
     * Modelling assumption: the annotation's status becomes `status`.
     */
    method AddMessage(author: NString, status: string, text: NString, oracle: Oracle) returns (m: Message)
      modifies this, oracle
      ensures m == Message(Some(oracle.stream(old(oracle.issued))), author, Some(status), text, oracle.now)
      ensures State() == old(State()).(status := Some(status), messages := old(messages) + [m])
      ensures oracle.issued == old(oracle.issued) + 1
    {
      var g := oracle.NewGuid();
      m := Message(Some(g), author, Some(status), text, oracle.now);
      messages := messages + [m];
      this.status := Some(status);
    }

    /**
     * `SetStatus(author, status)`. Modelling assumption: a status change is a
     * message of its own, with empty text and a fresh guid, as for AddMessage.
     */
    method SetStatus(author: NString, status: string, oracle: Oracle)
      modifies this, oracle
      ensures State() == old(State()).(status := Some(status),
                                       messages := old(messages) + [Message(Some(oracle.stream(old(oracle.issued))), author, Some(status), Some(""), oracle.now)])
      ensures oracle.issued == old(oracle.issued) + 1
    {
      var _ := AddMessage(author, status, Some(""), oracle);
    }
  }

  /** One notes file and the annotations read from it. */
  class AnnotationRepository {
    const path: string
    var annotations: seq<Annotation>

    constructor (path: string, annotations: seq<Annotation>)
      ensures this.path == path && this.annotations == annotations
    {
      this.path := path;
      this.annotations := annotations;
    }

    method AddAnnotation(a: Annotation)
      modifies this
      ensures annotations == old(annotations) + [a]
    {
      annotations := annotations + [a];
    }
  }

  /** `repos.SelectMany(repo => repo.GetAllAnnotations())`. */
  ghost function AllAnnotations(repos: seq<AnnotationRepository>): seq<Annotation>
    reads set r | r in repos
  {
    if repos == [] then []
    else AllAnnotations(repos[..|repos| - 1]) + repos[|repos| - 1].annotations
  }

  /** The states of a list of annotations. */
  ghost function States(anns: seq<Annotation>): (r: seq<AnnotationState>)
    reads set a | a in anns
    ensures |r| == |anns|
    ensures forall i :: 0 <= i < |anns| ==> r[i] == anns[i].State()
  {
    if anns == [] then [] else States(anns[..|anns| - 1]) + [anns[|anns| - 1].State()]
  }

  function Guids(anns: seq<AnnotationState>): (r: seq<string>)
    ensures |r| == |anns|
    ensures forall i :: 0 <= i < |anns| ==> r[i] == anns[i].guid
  {
    Seqs.Map((a: AnnotationState) => a.guid, anns)
  }
}

=== FILE: get_handler.dfy ===
/**
 * LanguageForgeGetChorusNotesActionHandler: the export of Chorus notes to
 * Language Forge.  Every annotation of the project is looked at once, in
 * enumeration order: an annotation whose guid Language Forge does not know
 * yet becomes a new comment, and one it knows contributes the replies
 * Language Forge has not seen yet.
 */
module GetHandler {
  import opened Wrappers
  import opened Text
  import opened Seqs
  import opened ChorusNotes
  import opened LfRecords

  /**
   * What the handler reads out of an annotation's escaped reference, by code
   * that lives in Chorus: `UrlHelper.GetValueFromQueryStringOfRef(ref, "guid", "")`
   * and `Annotation.LabelOfThingAnnotated`.
   */
  datatype RefReader = RefReader(guidOf: string -> string, labelOf: string -> NString)

  /** ChorusStatusToLfStatus: closed is resolved, anything else (null included) is open. */
  function ChorusStatusToLfStatus(status: NString): (r: string)
    ensures r == Resolved <==> status == Some(Closed)
    ensures r == LfOpen <==> status != Some(Closed)
  {
    if status == Some(Closed) then Resolved else LfOpen
  }

  /** The non-null guids of the incoming comments. */
  function KnownCommentGuids(comments: seq<LfComment>): set<string> {
    set c | c in comments && c.guid.Some? :: c.guid.value
  }

  /** The non-null guids of the incoming replies; a null reply list contributes none. */
  function KnownReplyGuids(comments: seq<LfComment>): set<string> {
    set c, r | c in comments && c.replies.Some? && r in c.replies.value && r.guid.Some? :: r.guid.value
  }

  /** ReplyFromChorusMsg: a live reply carrying the message's guid, author, text and date; no UniqId yet. */
  function ReplyFromChorusMsg(m: Message): LfReply {
    LfReply(m.guid, m.author, m.text, false, None, Some(AuthorInfo(m.date, m.date)))
  }

  /** A message whose text is neither null nor whitespace. */
  predicate NonBlank(m: Message) {
    !IsNullOrWhiteSpace(m.text)
  }

  /** The messages Language Forge sees as replies: all but the first, those with blank text left out. */
  function LaterNonBlank(msgs: seq<Message>): seq<Message> {
    Filter(Skip1(msgs), NonBlank)
  }

  /** The positions of the messages exported as replies: after the first, non-blank, in ascending order. */
  function ReplyPositions(msgs: seq<Message>): (ix: seq<nat>)
    ensures forall i :: 0 <= i < |ix| ==> 1 <= ix[i] < |msgs|
  {
    Positions(msgs, NonBlank, 1)
  }

  /** The replies of a known comment Language Forge does not have yet. */
  function RepliesNotYetInLf(a: AnnotationState, knownReplies: set<string>): seq<LfReply> {
    Map(ReplyFromChorusMsg, Filter(LaterNonBlank(a.messages), (m: Message) => !Present(knownReplies, m.guid)))
  }

  /** The new comment an annotation unknown to Language Forge becomes. */
  function CommentFromAnnotation(a: AnnotationState, refs: RefReader): LfComment {
    LfComment(
      guid := Some(a.guid),
      authorName := if a.messages == [] then Some("") else a.messages[0].author,
      dateCreated := a.date,
      dateModified := a.date,
      content := if a.messages == [] then Some("") else a.messages[0].text,
      status := Some(ChorusStatusToLfStatus(a.status)),
      regarding := Some(Regarding(Some(refs.guidOf(a.refUrl)), refs.labelOf(a.refUrl), Some(""))),
      replies := Some(Map(ReplyFromChorusMsg, LaterNonBlank(a.messages))),
      isDeleted := false)
  }

  /** The `lfComments` list after the loop has looked at `anns`. */
  function NewComments(anns: seq<AnnotationState>, knownComments: set<string>, refs: RefReader): seq<LfComment> {
    if anns == [] then []
    else
      var a := anns[|anns| - 1];
      NewComments(anns[..|anns| - 1], knownComments, refs)
        + (if a.guid in knownComments then [] else [CommentFromAnnotation(a, refs)])
  }

  /** The `lfReplies` list after the loop has looked at `anns`. */
  function NewReplies(anns: seq<AnnotationState>, knownComments: set<string>, knownReplies: set<string>)
    : seq<(string, seq<LfReply>)>
  {
    if anns == [] then []
    else
      var a := anns[|anns| - 1];
      var unseen := RepliesNotYetInLf(a, knownReplies);
      NewReplies(anns[..|anns| - 1], knownComments, knownReplies)
        + (if a.guid in knownComments && |unseen| > 0 then [(a.guid, unseen)] else [])
  }

  /** One more annotation looked at by the loop. */
  lemma NewCommentsSnoc(anns: seq<AnnotationState>, i: nat, knownComments: set<string>, refs: RefReader)
    requires i < |anns|
    ensures var a := anns[i];
            NewComments(anns[..i + 1], knownComments, refs)
            == NewComments(anns[..i], knownComments, refs) + (if a.guid in knownComments then [] else [CommentFromAnnotation(a, refs)])
  {
    assert anns[..i + 1][..i] == anns[..i];
  }

  lemma NewRepliesSnoc(anns: seq<AnnotationState>, i: nat, knownComments: set<string>, knownReplies: set<string>)
    requires i < |anns|
    ensures var a := anns[i];
            var unseen := RepliesNotYetInLf(a, knownReplies);
            NewReplies(anns[..i + 1], knownComments, knownReplies)
            == NewReplies(anns[..i], knownComments, knownReplies) + (if a.guid in knownComments && |unseen| > 0 then [(a.guid, unseen)] else [])
  {
    assert anns[..i + 1][..i] == anns[..i];
  }

  /**
   * The export loop of StartWorking over the project's annotations, in
   * enumeration order: the new comments and the (guid, new replies) pairs.
   */
  method Export(anns: seq<AnnotationState>, commentsFromLf: seq<LfComment>, refs: RefReader)
    returns (lfComments: seq<LfComment>, lfReplies: seq<(string, seq<LfReply>)>)
    ensures lfComments == NewComments(anns, KnownCommentGuids(commentsFromLf), refs)
    ensures lfReplies == NewReplies(anns, KnownCommentGuids(commentsFromLf), KnownReplyGuids(commentsFromLf))
  {
    var knownCommentGuids := KnownCommentGuids(commentsFromLf);
    var knownReplyGuids := KnownReplyGuids(commentsFromLf);
    lfComments := [];
    lfReplies := [];
    for i := 0 to |anns|
      invariant lfComments == NewComments(anns[..i], knownCommentGuids, refs)
      invariant lfReplies == NewReplies(anns[..i], knownCommentGuids, knownReplyGuids)
    {
      var ann := anns[i];
      NewCommentsSnoc(anns, i, knownCommentGuids, refs);
      NewRepliesSnoc(anns, i, knownCommentGuids, knownReplyGuids);
      if ann.guid in knownCommentGuids {
        var repliesNotYetInLf := RepliesNotYetInLf(ann, knownReplyGuids);
        if |repliesNotYetInLf| > 0 {
          lfReplies := lfReplies + [(ann.guid, repliesNotYetInLf)];
        }
      } else {
        lfComments := lfComments + [CommentFromAnnotation(ann, refs)];
      }
    }
    assert anns[..|anns|] == anns;
  }

  /** A message is exported as a reply exactly when it is not the first one and its text is not blank. */
  lemma LaterNonBlankSpec(msgs: seq<Message>)
    ensures forall m :: m in LaterNonBlank(msgs) ==>
              exists k :: 1 <= k < |msgs| && msgs[k] == m && !IsNullOrWhiteSpace(m.text)
    ensures forall k :: 1 <= k < |msgs| && !IsNullOrWhiteSpace(msgs[k].text) ==> msgs[k] in LaterNonBlank(msgs)
  {
    var p := NonBlank;
    forall m | m in LaterNonBlank(msgs)
      ensures exists k :: 1 <= k < |msgs| && msgs[k] == m && !IsNullOrWhiteSpace(m.text)
    {
      var j :| 0 <= j < |msgs[1..]| && msgs[1..][j] == m;
      assert msgs[j + 1] == m;
    }
    forall k | 1 <= k < |msgs| && !IsNullOrWhiteSpace(msgs[k].text)
      ensures msgs[k] in LaterNonBlank(msgs)
    {
      assert msgs[1..][k - 1] == msgs[k];
      FilterKeeps(msgs[1..], p, msgs[k]);
    }
  }

  /**
   * The reply positions are ascending, and they are exactly the positions
   * after the first whose message text is not blank.
   */
  lemma ReplyPositionsSpec(msgs: seq<Message>)
    ensures forall i :: 0 <= i < |ReplyPositions(msgs)| ==> NonBlank(msgs[ReplyPositions(msgs)[i]])
    ensures forall i, j :: 0 <= i < j < |ReplyPositions(msgs)| ==> ReplyPositions(msgs)[i] < ReplyPositions(msgs)[j]
    ensures forall k :: 1 <= k < |msgs| && NonBlank(msgs[k]) ==> k in ReplyPositions(msgs)
  {
    PositionsSpec(msgs, NonBlank, 1);
  }

  /**
   * The replies keep the order of the thread: the i-th one is the message at
   * the i-th reply position, so each later non-blank message is exported
   * exactly once, in thread order.
   */
  lemma LaterNonBlankOrder(msgs: seq<Message>)
    ensures |LaterNonBlank(msgs)| == |ReplyPositions(msgs)|
    ensures forall i :: 0 <= i < |ReplyPositions(msgs)| ==> LaterNonBlank(msgs)[i] == msgs[ReplyPositions(msgs)[i]]
  {
    if |msgs| > 0 {
      FilterAtPositions(msgs, NonBlank, 1);
    }
  }

  /** Membership in a mapped sequence. */
  lemma InMap<T, U>(f: T -> U, s: seq<T>)
    ensures forall y :: y in Map(f, s) ==> exists x :: x in s && y == f(x)
    ensures forall x :: x in s ==> f(x) in Map(f, s)
  {
    forall y | y in Map(f, s)
      ensures exists x :: x in s && y == f(x)
    {
      var i :| 0 <= i < |Map(f, s)| && Map(f, s)[i] == y;
      assert s[i] in s;
    }
    forall x | x in s
      ensures f(x) in Map(f, s)
    {
      var i :| 0 <= i < |s| && s[i] == x;
      assert Map(f, s)[i] == f(x);
    }
  }

  /**
   * The replies of a known comment: each comes from a later, non-blank
   * message whose guid Language Forge does not know, and every such message
   * gives one.
   */
  lemma RepliesNotYetInLfSpec(a: AnnotationState, knownReplies: set<string>)
    ensures forall r :: r in RepliesNotYetInLf(a, knownReplies) ==>
              && !Present(knownReplies, r.guid)
              && exists k :: 1 <= k < |a.messages| && r == ReplyFromChorusMsg(a.messages[k])
                               && !IsNullOrWhiteSpace(a.messages[k].text)
    ensures forall k :: 1 <= k < |a.messages| && !IsNullOrWhiteSpace(a.messages[k].text)
                        && !Present(knownReplies, a.messages[k].guid)
                        ==> ReplyFromChorusMsg(a.messages[k]) in RepliesNotYetInLf(a, knownReplies)
  {
    var p := (m: Message) => !Present(knownReplies, m.guid);
    var kept := Filter(LaterNonBlank(a.messages), p);
    LaterNonBlankSpec(a.messages);
    InMap(ReplyFromChorusMsg, kept);
    forall k | 1 <= k < |a.messages| && !IsNullOrWhiteSpace(a.messages[k].text) && !Present(knownReplies, a.messages[k].guid)
      ensures a.messages[k] in kept
    {
      FilterKeeps(LaterNonBlank(a.messages), p, a.messages[k]);
    }
  }

  /** A new comment's replies are every later non-blank message, once each and in thread order, known reply guids or not. */
  lemma NewCommentRepliesSpec(a: AnnotationState, refs: RefReader)
    ensures var replies := CommentFromAnnotation(a, refs).replies.value;
            && (forall r :: r in replies ==>
                  exists k :: 1 <= k < |a.messages| && r == ReplyFromChorusMsg(a.messages[k])
                              && !IsNullOrWhiteSpace(a.messages[k].text))
            && (forall k :: 1 <= k < |a.messages| && !IsNullOrWhiteSpace(a.messages[k].text)
                            ==> ReplyFromChorusMsg(a.messages[k]) in replies)
            && |replies| == |ReplyPositions(a.messages)|
            && (forall i :: 0 <= i < |replies| ==> replies[i] == ReplyFromChorusMsg(a.messages[ReplyPositions(a.messages)[i]]))
  {
    LaterNonBlankSpec(a.messages);
    LaterNonBlankOrder(a.messages);
    InMap(ReplyFromChorusMsg, LaterNonBlank(a.messages));
  }

  /**
   * The new comments are those of the annotations Language Forge does not
   * know, one each, in enumeration order: the LINQ reading of the loop.
   */
  lemma {:induction false} NewCommentsAreSelected(anns: seq<AnnotationState>, knownComments: set<string>, refs: RefReader,
                                                  f: AnnotationState -> LfComment, unknown: AnnotationState -> bool)
    requires forall a :: f(a) == CommentFromAnnotation(a, refs)
    requires forall a :: unknown(a) == (a.guid !in knownComments)
    ensures NewComments(anns, knownComments, refs) == Map(f, Filter(anns, unknown))
  {
    if anns != [] {
      var init, a := anns[..|anns| - 1], anns[|anns| - 1];
      assert anns == init + [a];
      NewCommentsAreSelected(init, knownComments, refs, f, unknown);
      FilterSnoc(init, a, unknown);
      if unknown(a) {
        MapSnoc(f, Filter(init, unknown), a);
      }
    }
  }

  /** The (guid, replies) pairs are those of the known annotations with replies to send, one each, in order. */
  lemma {:induction false} NewRepliesAreSelected(anns: seq<AnnotationState>, knownComments: set<string>, knownReplies: set<string>,
                                                 f: AnnotationState -> (string, seq<LfReply>), sends: AnnotationState -> bool)
    requires forall a :: f(a) == (a.guid, RepliesNotYetInLf(a, knownReplies))
    requires forall a :: sends(a) == (a.guid in knownComments && |RepliesNotYetInLf(a, knownReplies)| > 0)
    ensures NewReplies(anns, knownComments, knownReplies) == Map(f, Filter(anns, sends))
  {
    if anns != [] {
      var init, a := anns[..|anns| - 1], anns[|anns| - 1];
      assert anns == init + [a];
      NewRepliesAreSelected(init, knownComments, knownReplies, f, sends);
      FilterSnoc(init, a, sends);
      if sends(a) {
        MapSnoc(f, Filter(init, sends), a);
      }
    }
  }

  /**
   * An annotation Language Forge knows never gives a new comment, and every
   * other annotation gives its own.
   */
  lemma {:induction false} NewCommentsSpec(anns: seq<AnnotationState>, knownComments: set<string>, refs: RefReader)
    ensures forall c :: c in NewComments(anns, knownComments, refs) ==>
              exists a :: a in anns && a.guid !in knownComments && c == CommentFromAnnotation(a, refs)
    ensures forall a :: a in anns && a.guid !in knownComments ==> CommentFromAnnotation(a, refs) in NewComments(anns, knownComments, refs)
  {
    if anns != [] {
      var init, a := anns[..|anns| - 1], anns[|anns| - 1];
      assert anns == init + [a];
      NewCommentsSpec(init, knownComments, refs);
    }
  }

  /**
   * A (guid, replies) pair comes from a known annotation with at least one
   * reply Language Forge lacks, and every such annotation gives its pair.
   */
  lemma {:induction false} NewRepliesSpec(anns: seq<AnnotationState>, knownComments: set<string>, knownReplies: set<string>)
    ensures forall e :: e in NewReplies(anns, knownComments, knownReplies) ==>
              exists a :: a in anns && a.guid in knownComments && e == (a.guid, RepliesNotYetInLf(a, knownReplies))
                          && RepliesNotYetInLf(a, knownReplies) != []
    ensures forall a :: a in anns && a.guid in knownComments && RepliesNotYetInLf(a, knownReplies) != []
                        ==> (a.guid, RepliesNotYetInLf(a, knownReplies)) in NewReplies(anns, knownComments, knownReplies)
  {
    if anns != [] {
      var init, a := anns[..|anns| - 1], anns[|anns| - 1];
      assert anns == init + [a];
      NewRepliesSpec(init, knownComments, knownReplies);
    }
  }

  /**
   * What the export hands back is new to Language Forge: no new comment
   * carries the guid of an incoming comment, and no exported reply of a known
   * comment carries the guid of an incoming reply.
   */
  lemma ExportIsNew(anns: seq<AnnotationState>, commentsFromLf: seq<LfComment>, refs: RefReader)
    ensures forall c, x :: c in NewComments(anns, KnownCommentGuids(commentsFromLf), refs) && x in commentsFromLf
                           ==> c.guid != x.guid
    ensures forall e, r, x, y :: e in NewReplies(anns, KnownCommentGuids(commentsFromLf), KnownReplyGuids(commentsFromLf))
                                 && r in e.1 && x in commentsFromLf && x.replies.Some? && y in x.replies.value
                                 ==> r.guid.None? || r.guid != y.guid
  {
    var kc, kr := KnownCommentGuids(commentsFromLf), KnownReplyGuids(commentsFromLf);
    NewCommentsSpec(anns, kc, refs);
    NewRepliesSpec(anns, kc, kr);
    forall e | e in NewReplies(anns, kc, kr)
      ensures forall r :: r in e.1 ==> !Present(kr, r.guid)
    {
      var a :| a in anns && a.guid in kc && e == (a.guid, RepliesNotYetInLf(a, kr));
      RepliesNotYetInLfSpec(a, kr);
    }
  }
}

=== FILE: lf_records.dfy ===
/** The comment records Language Forge exchanges with the bridge. */
module LfRecords {
  import opened Wrappers
  import opened Text
  import opened ChorusNotes

  /** `SerializableLfComment.Open` and `.Resolved`. */
  const LfOpen: string := "open"
  const Resolved: string := "resolved"

  datatype AuthorInfo = AuthorInfo(createdDate: Date, modifiedDate: Date)

  /** A reply, as the handlers use it (`Content` and `AuthorInfo` included). */
  datatype LfReply = LfReply(
    guid: NString,
    authorName: NString,
    content: NString,
    isDeleted: bool,
    uniqId: NString,
    authorInfo: Option<AuthorInfo>)

  /** What a comment is about: the annotated object's guid and its short name. */
  datatype Regarding = Regarding(targetGuid: NString, word: NString, meaning: NString)

  /** `SerializableLfComment`; `replies` is `None` for a null list. */
  datatype LfComment = LfComment(
    guid: NString,
    authorName: NString,
    dateCreated: Date,
    dateModified: Date,
    content: NString,
    status: NString,
    regarding: Option<Regarding>,
    replies: Option<seq<LfReply>>,
    isDeleted: bool)

  /** `Replies == null || Replies.Count == 0`. */
  predicate HasNoReplies(c: LfComment) {
    c.replies.None? || |c.replies.value| == 0
  }
}

=== FILE: mappings.dfy ===
/**
 * The `Dictionary<string, string>` tables in which the write handler collects
 * "remote id -> Chorus guid" pairs, and the `key=value;...` text in which it
 * reports them.  A dictionary is an insertion-ordered list of entries: a new
 * key goes to the end, and assigning an existing key replaces its value in
 * place (the indexer `d[k] = v`).
 */
module IdMappings {
  import opened Wrappers
  import opened Text
  import Seqs

  type Entries = seq<(string, string)>

  predicate UniqueKeys(d: Entries) {
    forall i, j :: 0 <= i < j < |d| ==> d[i].0 != d[j].0
  }

  /** Position of key `k` in `d`, or `|d|` when `k` is not a key. */
  function KeyPosition(d: Entries, k: string): (r: nat)
    ensures r <= |d|
    ensures r < |d| ==> d[r].0 == k
    ensures forall j :: 0 <= j < r ==> d[j].0 != k
  {
    if |d| == 0 then 0
    else if d[0].0 == k then 0
    else 1 + KeyPosition(d[1..], k)
  }

  /** `TryGetValue`. */
  function Lookup(d: Entries, k: string): (r: Option<string>)
    ensures r.Some? <==> exists j :: 0 <= j < |d| && d[j].0 == k
  {
    var p := KeyPosition(d, k);
    if p < |d| then Some(d[p].1) else None
  }

  /** The indexer assignment `d[k] = v`. */
  function Assign(d: Entries, k: string, v: string): Entries {
    var p := KeyPosition(d, k);
    if p < |d| then d[p := (k, v)] else d + [(k, v)]
  }

  /**
   * After `d[k] = v`, `k` holds `v` (a repeated key overwrites the earlier
   * value, in place), every other key keeps its value, and no key is duplicated.
   */
  lemma AssignSpec(d: Entries, k: string, v: string)
    ensures var r := Assign(d, k, v);
            && Lookup(r, k) == Some(v)
            && (forall k' :: k' != k ==> Lookup(r, k') == Lookup(d, k'))
            && (UniqueKeys(d) ==> UniqueKeys(r))
            && |r| == (if Lookup(d, k).Some? then |d| else |d| + 1)
            && (forall i :: 0 <= i < |d| ==> r[i].0 == d[i].0)
  {
    var p := KeyPosition(d, k);
    var r := Assign(d, k, v);
    assert forall i :: 0 <= i < |d| ==> r[i].0 == d[i].0;
    KeyPositionIs(r, k, p);
    forall k' | k' != k
      ensures Lookup(r, k') == Lookup(d, k')
    {
      var q := KeyPosition(d, k');
      if q < |d| {
        KeyPositionIs(r, k', q);
      } else {
        KeyPositionIs(r, k', |r|);
      }
    }
  }

  /** The first position holding `k` is unique. */
  lemma KeyPositionIs(d: Entries, k: string, p: nat)
    requires p <= |d|
    requires p < |d| ==> d[p].0 == k
    requires forall j :: 0 <= j < p ==> d[j].0 != k
    ensures KeyPosition(d, k) == p
  {
  }

  /** Assigning every pair of `ps` in turn. */
  function AssignAll(d: Entries, ps: seq<(string, string)>): Entries {
    if ps == [] then d
    else Assign(AssignAll(d, ps[..|ps| - 1]), ps[|ps| - 1].0, ps[|ps| - 1].1)
  }

  function KeysOf(ps: seq<(string, string)>): seq<string> {
    seq(|ps|, i requires 0 <= i < |ps| => ps[i].0)
  }

  /** After assigning a list of pairs, each key holds the value of its last pair. */
  lemma {:induction false} AssignAllLookup(d: Entries, ps: seq<(string, string)>, k: string)
    ensures var last := Seqs.LastIndex(KeysOf(ps));
            Lookup(AssignAll(d, ps), k) == if k in last then Some(ps[last[k]].1) else Lookup(d, k)
  {
    if ps != [] {
      var init := ps[..|ps| - 1];
      AssignAllLookup(d, init, k);
      AssignSpec(AssignAll(d, init), ps[|ps| - 1].0, ps[|ps| - 1].1);
      assert KeysOf(ps)[..|ps| - 1] == KeysOf(init);
    }
  }

  /** The report text: `key=value` pairs joined by `;`. */
  function Format(d: Entries): string {
    Join(";", Pieces(d))
  }

  /** The `key=value` pieces of the report. */
  function Pieces(d: Entries): (r: seq<string>)
    ensures |r| == |d|
  {
    seq(|d|, i requires 0 <= i < |d| => d[i].0 + "=" + d[i].1)
  }

  /** Reads a report back: split at `;`, then each piece at its first `=`. */
  function Parse(s: string): Entries {
    if s == "" then []
    else
      var pieces := Split(s, ';');
      seq(|pieces|, i requires 0 <= i < |pieces| => ParsePair(pieces[i]))
  }

  function ParsePair(t: string): (string, string) {
    var i := FirstIndexOf(t, '=');
    if i == |t| then (t, "") else (t[..i], t[i + 1..])
  }

  /** Neither keys nor values contain `;`, and keys contain no `=` (true of object ids and guids). */
  predicate Plain(d: Entries) {
    && (forall i, j :: 0 <= i < |d| && 0 <= j < |d[i].0| ==> d[i].0[j] != ';' && d[i].0[j] != '=')
    && (forall i, j :: 0 <= i < |d| && 0 <= j < |d[i].1| ==> d[i].1[j] != ';')
  }

  /** The reported text determines the table. */
  lemma FormatParse(d: Entries)
    requires Plain(d)
    ensures Parse(Format(d)) == d
  {
    if d != [] {
      PiecesPlain(d);
      SplitJoin(Pieces(d), ';');
      FormatNonEmpty(d);
      forall i | 0 <= i < |d|
        ensures ParsePair(Pieces(d)[i]) == d[i]
      {
        ParsePiece(d[i]);
      }
    }
  }

  /** No piece of a plain table contains the separator `;`. */
  lemma PiecesPlain(d: Entries)
    requires Plain(d)
    ensures forall k :: 0 <= k < |Pieces(d)| ==> Lacks(Pieces(d)[k], ';')
  {
    forall k, j | 0 <= k < |d| && 0 <= j < |Pieces(d)[k]|
      ensures Pieces(d)[k][j] != ';'
    {
      PieceChar(d[k], j);
    }
  }

  lemma PieceChar(e: (string, string), j: nat)
    requires forall i :: 0 <= i < |e.0| ==> e.0[i] != ';'
    requires forall i :: 0 <= i < |e.1| ==> e.1[i] != ';'
    requires j < |e.0 + "=" + e.1|
    ensures (e.0 + "=" + e.1)[j] != ';'
  {
    if j > |e.0| {
      assert (e.0 + "=" + e.1)[j] == e.1[j - |e.0| - 1];
    }
  }

  /** A piece splits back at its first `=` when the key has none. */
  lemma ParsePiece(e: (string, string))
    requires forall i :: 0 <= i < |e.0| ==> e.0[i] != '='
    ensures ParsePair(e.0 + "=" + e.1) == e
  {
    var t := e.0 + "=" + e.1;
    FirstIndexAfter(e.0, '=', e.1);
    assert t == e.0 + ['='] + e.1;
    assert t[..|e.0|] == e.0;
    assert t[|e.0| + 1..] == e.1;
  }

  lemma FormatNonEmpty(d: Entries)
    requires d != []
    ensures Format(d) != ""
  {
    JoinStartsWith(Pieces(d));
  }

  lemma JoinStartsWith(parts: seq<string>)
    requires |parts| >= 1
    ensures |Join(";", parts)| >= |parts[0]|
    ensures Join(";", parts)[..|parts[0]|] == parts[0]
  {
  }

  /** A `Dictionary<string, string>` the handler fills in place. */
  class StringDictionary {
    var entries: Entries

    constructor ()
      ensures entries == []
    {
      entries := [];
    }

    /** The indexer assignment `this[k] = v`. */
    method SetItem(k: string, v: string)
      modifies this
      ensures entries == Assign(old(entries), k, v)
    {
      var p := 0;
      while p < |entries| && entries[p].0 != k
        invariant 0 <= p <= |entries|
        invariant forall j :: 0 <= j < p ==> entries[j].0 != k
      {
        p := p + 1;
      }
      KeyPositionIs(entries, k, p);
      if p < |entries| {
        entries := entries[p := (k, v)];
      } else {
        entries := entries + [(k, v)];
      }
    }
  }
}

=== FILE: round_trip.dfy ===
/**
 * The two handlers together: what Language Forge gets from the export and
 * what the write-back then does with it.  The two status maps form a small
 * round trip, and comments and replies the export produced do not grow the
 * Chorus threads they came from when they are written back.
 */
module NotesRoundTrip {
  import opened Wrappers
  import opened Text
  import opened ChorusNotes
  import opened LfRecords
  import opened IdMappings
  import opened WriteSpec
  import opened WriteProperties
  import opened GetHandler

  /** A Language Forge status written to Chorus and read back is resolved exactly when it was resolved. */
  lemma LfStatusRoundTrip(s: NString)
    ensures ChorusStatusToLfStatus(Some(LfStatusToChorusStatus(s))) == (if s == Some(Resolved) then Resolved else LfOpen)
  {
  }

  /** A Chorus status read by Language Forge and written back is closed exactly when it was closed. */
  lemma ChorusStatusRoundTrip(s: NString)
    ensures LfStatusToChorusStatus(Some(ChorusStatusToLfStatus(s))) == (if s == Some(Closed) then Closed else Open)
  {
  }

  /** An exported reply written back as a message keeps the message's author and text. */
  lemma ReplyRoundTrip(m: Message, statusToSet: string, g: string, now: Date)
    ensures ReplyMessage(ReplyFromChorusMsg(m), statusToSet, g, now)
            == m.(guid := Some(g), status := Some(statusToSet), date := now)
  {
  }

  /** Chorus gives every annotation and every message a real guid. */
  predicate GuidsAreReal(a: AnnotationState) {
    a.guid != "" && forall m :: m in a.messages ==> !IsSentinelGuid(m.guid)
  }

  /** Replies exported from the messages of `a` are all present in `a` already. */
  lemma ExportedRepliesPresent(a: AnnotationState, replies: seq<LfReply>)
    requires GuidsAreReal(a)
    requires forall r :: r in replies ==> exists k :: 0 <= k < |a.messages| && r == ReplyFromChorusMsg(a.messages[k])
    ensures AppendedReplies(ExistingMessageGuids(a.messages), replies) == []
  {
    var known := ExistingMessageGuids(a.messages);
    forall r | r in replies && !r.isDeleted
      ensures Present(known, r.guid)
    {
      var k :| 0 <= k < |a.messages| && r == ReplyFromChorusMsg(a.messages[k]);
      assert a.messages[k] in a.messages;
    }
    NothingAppendedWhenAllPresent(known, replies);
  }

  /** The new replies of a known comment, sent back with that comment, append nothing. */
  lemma KnownRepliesRoundTrip(a: AnnotationState, knownReplies: set<string>)
    requires GuidsAreReal(a)
    ensures AppendedReplies(ExistingMessageGuids(a.messages), RepliesNotYetInLf(a, knownReplies)) == []
  {
    RepliesNotYetInLfSpec(a, knownReplies);
    ExportedRepliesPresent(a, RepliesNotYetInLf(a, knownReplies));
  }

  /** A status Language Forge reads back as itself: closed, open, or blank (which means open). */
  predicate SettledStatus(s: NString) {
    s == Some(Closed) || s == Some(Open) || IsNullOrEmpty(s)
  }

  /**
   * A new comment the export made, written back to the annotation it came
   * from: no reply is appended and the tables are untouched; a comment
   * without replies changes nothing at all. One with replies leaves the
   * status meaning closed when it was closed and open otherwise; when the
   * status was some other text, that write is a blank status message with
   * the next fresh guid, and otherwise nothing changes.
   */
  lemma NewCommentRoundTrip(a: AnnotationState, refs: RefReader, objectId: NString,
                            commentIds: Entries, replyIds: Entries, issued: nat, env: Env)
    requires GuidsAreReal(a)
    ensures var c := CommentFromAnnotation(a, refs);
            var o := MergeReplies(a, c, objectId, commentIds, replyIds, issued, env);
            && o.commentIds == commentIds && o.replyIds == replyIds
            && (HasNoReplies(c) ==> o.ann == a && o.issued == issued)
            && (!HasNoReplies(c) ==>
                  && EquivalentStatus(o.ann.status, if a.status == Some(Closed) then Closed else Open)
                  && (o.statusWritten <==> !SettledStatus(a.status))
                  && o.ann.messages == a.messages + (if o.statusWritten then [StatusMessage(Open, env.stream(issued), env.now)] else [])
                  && o.issued == issued + (if o.statusWritten then 1 else 0))
  {
    var c := CommentFromAnnotation(a, refs);
    MergeRepliesSpec(a, c, objectId, commentIds, replyIds, issued, env);
    if !HasNoReplies(c) {
      NewCommentRepliesSpec(a, refs);
      ExportedRepliesPresent(a, c.replies.value);
      MergeRepliesStatusOnly(a, c, objectId, commentIds, replyIds, issued, env);
      ChorusStatusRoundTrip(a.status);
      SettledIsEquivalent(a.status);
    }
  }

  /** Written back, a Chorus status already means what it becomes exactly when it is settled. */
  lemma SettledIsEquivalent(s: NString)
    ensures EquivalentStatus(s, LfStatusToChorusStatus(Some(ChorusStatusToLfStatus(s)))) <==> SettledStatus(s)
  {
    ChorusStatusRoundTrip(s);
  }

  /**
   * A new comment the export made, written to a project that lacks its
   * annotation: the annotation is re-created under the same guid (when the
   * guid parses to itself and is not all zeros), with the same first text, a
   * status that is closed exactly when it was, and the same author when that
   * was not blank ("Language Forge" when it was).
   */
  lemma NewCommentRecreates(a: AnnotationState, refs: RefReader, env: Env, issued: nat)
    requires a.messages != []
    requires env.parse(a.guid) == Some(a.guid) && a.guid != ZeroGuid
    ensures var c := CommentFromAnnotation(a, refs);
            var (b, _) := NewAnnotation(c.content, c.guid, c.authorName, c.status, OwnerGuid(c), OwnerShortName(c), env, issued);
            && b.guid == a.guid
            && b.messages[0].text == a.messages[0].text
            && (b.status == Some(Closed) <==> a.status == Some(Closed))
            && (!IsNullOrEmpty(a.messages[0].author) ==> b.messages[0].author == a.messages[0].author)
            && (IsNullOrEmpty(a.messages[0].author) ==> b.messages[0].author == Some(GenericAuthorName))
            && b.className == "note"
            && b.refUrl == MakeFlexRefURL(Some(refs.guidOf(a.refUrl)), refs.labelOf(a.refUrl))
  {
    ChorusStatusRoundTrip(a.status);
  }

  /** The blank message a status write adds is never exported as a reply. */
  lemma StatusMessageNotExported(msgs: seq<Message>, status: string, g: string, now: Date)
    ensures LaterNonBlank(msgs + [StatusMessage(status, g, now)]) == LaterNonBlank(msgs)
  {
    var m := StatusMessage(status, g, now);
    if msgs != [] {
      assert (msgs + [m])[1..] == msgs[1..] + [m];
      Seqs.FilterSnoc(msgs[1..], m, NonBlank);
    } else {
      assert Seqs.Skip1([m]) == [];
    }
  }
}

=== FILE: seqs.dfy ===
/** Sequence helpers that stand for the LINQ operators the handlers use. */
module Seqs {

  /** LINQ `Where`: the elements of `s` that satisfy `p`, in order. */
  function Filter<T>(s: seq<T>, p: T -> bool): (r: seq<T>)
    ensures |r| <= |s|
    ensures forall x :: x in r ==> x in s && p(x)
  {
    if s == [] then []
    else Filter(s[..|s| - 1], p) + (if p(s[|s| - 1]) then [s[|s| - 1]] else [])
  }

  /** LINQ `Select`. */
  function Map<T, U>(f: T -> U, s: seq<T>): (r: seq<U>)
    ensures |r| == |s|
    ensures forall i :: 0 <= i < |s| ==> r[i] == f(s[i])
  {
    seq(|s|, i requires 0 <= i < |s| => f(s[i]))
  }

  /** LINQ `Skip(1)`. */
  function Skip1<T>(s: seq<T>): (r: seq<T>)
    ensures |s| > 0 ==> r == s[1..]
    ensures |s| == 0 ==> r == []
  {
    if |s| == 0 then [] else s[1..]
  }

  /** Filtering one more element at the end. */
  lemma FilterSnoc<T>(s: seq<T>, x: T, p: T -> bool)
    ensures Filter(s + [x], p) == Filter(s, p) + (if p(x) then [x] else [])
  {
    assert (s + [x])[..|s|] == s;
  }

  /** Every element of `s` that satisfies `p` is kept. */
  lemma {:induction false} FilterKeeps<T>(s: seq<T>, p: T -> bool, x: T)
    requires x in s && p(x)
    ensures x in Filter(s, p)
  {
    var last := s[|s| - 1];
    if x != last {
      assert s == s[..|s| - 1] + [last];
      FilterKeeps(s[..|s| - 1], p, x);
    }
  }

  /** The positions from `lo` on whose element satisfies `p`, in ascending order. */
  function Positions<T>(s: seq<T>, p: T -> bool, lo: nat): (ix: seq<nat>)
    ensures forall i :: 0 <= i < |ix| ==> lo <= ix[i] < |s|
  {
    if |s| <= lo then []
    else Positions(s[..|s| - 1], p, lo) + (if p(s[|s| - 1]) then [|s| - 1] else [])
  }

  /** `Positions` is ascending and holds exactly the positions from `lo` on that satisfy `p`. */
  lemma {:induction false} PositionsSpec<T>(s: seq<T>, p: T -> bool, lo: nat)
    ensures forall i :: 0 <= i < |Positions(s, p, lo)| ==> p(s[Positions(s, p, lo)[i]])
    ensures forall i, j :: 0 <= i < j < |Positions(s, p, lo)| ==> Positions(s, p, lo)[i] < Positions(s, p, lo)[j]
    ensures forall k :: lo <= k < |s| && p(s[k]) ==> k in Positions(s, p, lo)
  {
    if |s| > lo {
      var n := |s|;
      var init := s[..n - 1];
      PositionsSpec(init, p, lo);
      var before := Positions(init, p, lo);
      var ix := Positions(s, p, lo);
      assert ix == before + (if p(s[n - 1]) then [n - 1] else []);
      forall i | 0 <= i < |before|
        ensures p(s[ix[i]])
      {
        assert s[before[i]] == init[before[i]];
      }
      forall k | lo <= k < n - 1 && p(s[k])
        ensures k in ix
      {
        assert init[k] == s[k];
      }
    }
  }

  /** Filtering from `lo` on keeps the elements at `Positions`, in order, once each. */
  lemma {:induction false} FilterAtPositions<T>(s: seq<T>, p: T -> bool, lo: nat)
    requires lo <= |s|
    ensures |Filter(s[lo..], p)| == |Positions(s, p, lo)|
    ensures forall i :: 0 <= i < |Positions(s, p, lo)| ==> Filter(s[lo..], p)[i] == s[Positions(s, p, lo)[i]]
  {
    if |s| > lo {
      var n := |s|;
      var init := s[..n - 1];
      FilterAtPositions(init, p, lo);
      assert s[lo..] == init[lo..] + [s[n - 1]];
      FilterSnoc(init[lo..], s[n - 1], p);
      var before := Positions(init, p, lo);
      assert Positions(s, p, lo) == before + (if p(s[n - 1]) then [n - 1] else []);
      forall i | 0 <= i < |before|
        ensures Filter(s[lo..], p)[i] == s[Positions(s, p, lo)[i]]
      {
        assert Filter(s[lo..], p)[i] == Filter(init[lo..], p)[i];
        assert s[before[i]] == init[before[i]];
      }
    }
  }

  /** Mapping one more element at the end. */
  lemma MapSnoc<T, U>(f: T -> U, s: seq<T>, x: T)
    ensures Map(f, s + [x]) == Map(f, s) + [f(x)]
  {
  }

  /**
   * The index a `Dictionary` ends up with when every key of `keys` is written
   * in turn: each key maps to the position of its LAST occurrence.
   */
  function LastIndex<K>(keys: seq<K>): (m: map<K, nat>)
    ensures m.Keys == set k | k in keys
    ensures forall k :: k in m ==> m[k] < |keys| && keys[m[k]] == k
    ensures forall k, j :: k in m && m[k] < j < |keys| ==> keys[j] != k
  {
    if keys == [] then map[]
    else LastIndex(keys[..|keys| - 1])[keys[|keys| - 1] := |keys| - 1]
  }

  /** Writing one more key moves it to the new last position. */
  lemma LastIndexSnoc<K>(keys: seq<K>, k: K)
    ensures LastIndex(keys + [k]) == LastIndex(keys)[k := |keys|]
  {
    assert (keys + [k])[..|keys|] == keys;
  }

  /** `index` finds, under each key, the element of `seen` at the key's position. */
  ghost predicate FindsAt<K, V>(index: map<K, V>, positions: map<K, nat>, seen: seq<V>) {
    && index.Keys == positions.Keys
    && forall g :: g in index ==> positions[g] < |seen| && index[g] == seen[positions[g]]
  }

  /** Writing `v` under `k` keeps `index` finding once `v` is appended and `k` points at it. */
  lemma FindsSnoc<K, V>(index: map<K, V>, positions: map<K, nat>, seen: seq<V>, k: K, v: V)
    requires FindsAt(index, positions, seen)
    ensures FindsAt(index[k := v], positions[k := |seen|], seen + [v])
  {
  }

  /** Distinct elements, as for objects loaded from different places. */
  predicate Distinct<T(==)>(s: seq<T>) {
    forall i, j :: 0 <= i < j < |s| ==> s[i] != s[j]
  }

  /** Two distinct sequences with no common element concatenate to a distinct one. */
  lemma DistinctConcat<T>(a: seq<T>, b: seq<T>)
    requires Distinct(a) && Distinct(b)
    requires forall x :: x in a ==> x !in b
    ensures Distinct(a + b)
  {
    forall i, j | 0 <= i < j < |a + b|
      ensures (a + b)[i] != (a + b)[j]
    {
      if i < |a| && |a| <= j {
        assert (a + b)[i] in a;
        assert (a + b)[j] == b[j - |a|];
      }
    }
  }
}

=== FILE: text.dfy ===
/**
 * The few .NET string operations the handlers rely on, over strings that
 * may be null.
 */
module Text {
  import opened Wrappers

  /** A .NET `string` reference: `None` is null. */
  type NString = Option<string>

  /** `String.IsNullOrEmpty`. */
  predicate IsNullOrEmpty(s: NString) {
    s.None? || s.value == ""
  }

  /** `Char.IsWhiteSpace`: the Unicode space, line and paragraph separators and the listed control characters. */
  predicate IsWhiteSpace(c: char) {
    ('\U{9}' <= c <= '\U{D}') || c == ' ' || c == '\U{85}' || c == '\U{A0}' || c == '\U{1680}'
    || ('\U{2000}' <= c <= '\U{200A}') || c == '\U{2028}' || c == '\U{2029}'
    || c == '\U{202F}' || c == '\U{205F}' || c == '\U{3000}'
  }

  /** `String.IsNullOrWhiteSpace`. */
  predicate IsNullOrWhiteSpace(s: NString) {
    s.None? || forall i :: 0 <= i < |s.value| ==> IsWhiteSpace(s.value[i])
  }

  /** `HashSet<string>.Contains`: a null string is never contained. */
  predicate Present(known: set<string>, g: NString) {
    g.Some? && g.value in known
  }

  /** How `String.Format` renders an argument: null becomes the empty string. */
  function FormatArg(s: NString): (r: string)
    ensures s.Some? ==> r == s.value
    ensures s.None? ==> r == ""
  {
    if s.None? then "" else s.value
  }

  /** `needle` occurs in `hay` starting at offset `i`. */
  predicate OccursAt(hay: string, needle: string, i: int) {
    0 <= i <= |hay| - |needle| && hay[i..i + |needle|] == needle
  }

  /** `String.Contains`: `needle` occurs in `hay` at some offset. */
  predicate Contains(hay: string, needle: string) {
    exists i :: 0 <= i <= |hay| - |needle| && OccursAt(hay, needle, i)
  }

  /** `String.Join(sep, parts)`. */
  function Join(sep: string, parts: seq<string>): (r: string)
    ensures parts == [] ==> r == ""
    ensures |parts| == 1 ==> r == parts[0]
  {
    if |parts| == 0 then ""
    else if |parts| == 1 then parts[0]
    else parts[0] + sep + Join(sep, parts[1..])
  }

  /** Position of the first `c` in `s`, or `|s|` when there is none. */
  function FirstIndexOf(s: string, c: char): (r: nat)
    ensures r <= |s|
    ensures r < |s| ==> s[r] == c
    ensures forall j :: 0 <= j < r ==> s[j] != c
  {
    if |s| == 0 then 0
    else if s[0] == c then 0
    else 1 + FirstIndexOf(s[1..], c)
  }

  /** `s.Split(c)`: the pieces between the occurrences of `c`. */
  function Split(s: string, c: char): (r: seq<string>)
    ensures |r| >= 1
    decreases |s|
  {
    var i := FirstIndexOf(s, c);
    if i == |s| then [s] else [s[..i]] + Split(s[i + 1..], c)
  }

  /** `c` does not occur in `s`. */
  predicate Lacks(s: string, c: char) {
    forall j :: 0 <= j < |s| ==> s[j] != c
  }

  /** Splitting a join of pieces that do not contain the separator gives the pieces back. */
  lemma {:induction false} SplitJoin(parts: seq<string>, c: char)
    requires |parts| >= 1
    requires forall k :: 0 <= k < |parts| ==> Lacks(parts[k], c)
    ensures Split(Join([c], parts), c) == parts
  {
    if |parts| == 1 {
      FirstIndexNone(parts[0], c);
    } else {
      var tail := parts[1..];
      assert forall k :: 0 <= k < |tail| ==> tail[k] == parts[k + 1];
      SplitJoin(tail, c);
      JoinCons(c, parts);
      SplitCons(parts[0], c, Join([c], tail));
      assert parts == [parts[0]] + tail;
    }
  }

  lemma JoinCons(c: char, parts: seq<string>)
    requires |parts| >= 2
    ensures Join([c], parts) == parts[0] + [c] + Join([c], parts[1..])
  {
  }

  lemma SplitCons(p: string, c: char, rest: string)
    requires Lacks(p, c)
    ensures Split(p + [c] + rest, c) == [p] + Split(rest, c)
  {
    var s := p + [c] + rest;
    FirstIndexAfter(p, c, rest);
    assert s[..|p|] == p && s[|p| + 1..] == rest;
  }

  lemma FirstIndexNone(s: string, c: char)
    requires Lacks(s, c)
    ensures FirstIndexOf(s, c) == |s|
  {
  }

  lemma FirstIndexAfter(p: string, c: char, rest: string)
    requires Lacks(p, c)
    ensures FirstIndexOf(p + [c] + rest, c) == |p|
  {
    var s := p + [c] + rest;
    assert s[|p|] == c;
  }
}

=== FILE: wrappers.dfy ===
/** Optional values; `None` also stands for a .NET null reference. */
module Wrappers {

  datatype Option<+T> = None | Some(value: T)
}

=== FILE: write_handler.dfy ===
/**
 * LanguageForgeWriteToChorusNotesActionHandler as the imperative program it
 * is: repositories in an array, annotations as objects updated in place, the
 * two mapping dictionaries filled as the loop runs.  Every method is proved
 * against the functions of WriteSpec.
 */
module WriteHandler {
  import opened Wrappers
  import opened Text
  import opened Seqs
  import opened IdMappings
  import opened ChorusNotes
  import opened LfRecords
  import opened WriteSpec

  /** A notes file is the primary one when its path mentions `Lexicon.fwstub.ChorusNotes`. */
  predicate IsPrimaryPath(path: string) {
    Contains(path, MainNotesFilename)
  }

  /** `Array.FindIndex` for the primary repository: the first match, or -1. */
  function FirstPrimary(repos: seq<AnnotationRepository>): (r: int)
    ensures -1 <= r < |repos|
    ensures 0 <= r ==> IsPrimaryPath(repos[r].path)
    ensures forall j :: 0 <= j < |repos| && (r < 0 || j < r) ==> !IsPrimaryPath(repos[j].path)
  {
    if repos == [] then -1
    else if IsPrimaryPath(repos[0].path) then 0
    else
      var r := FirstPrimary(repos[1..]);
      if r < 0 then -1 else r + 1
  }

  /** The path of the primary notes file made when the project has none: `Path.Combine(ProjectDir, stub)` plus the notes extension. */
  function PrimaryNotesPath(projectDir: string): string {
    projectDir + "/" + MainNotesFilename
  }

  lemma PrimaryNotesPathIsPrimary(projectDir: string)
    ensures IsPrimaryPath(PrimaryNotesPath(projectDir))
  {
    var p := PrimaryNotesPath(projectDir);
    assert OccursAt(p, MainNotesFilename, |projectDir| + 1);
  }

  method FindPrimaryIndex(repos: array<AnnotationRepository>) returns (idx: int)
    ensures idx == FirstPrimary(repos[..])
  {
    var i := 0;
    while i < repos.Length
      invariant 0 <= i <= repos.Length
      invariant forall j :: 0 <= j < i ==> !IsPrimaryPath(repos[j].path)
    {
      if IsPrimaryPath(repos[i].path) {
        FirstPrimaryIs(repos[..], i);
        return i;
      }
      i := i + 1;
    }
    FirstPrimaryIs(repos[..], -1);
    return -1;
  }

  /** The first match is unique: any position with the characterising properties is it. */
  lemma FirstPrimaryIs(repos: seq<AnnotationRepository>, i: int)
    requires -1 <= i < |repos|
    requires 0 <= i ==> IsPrimaryPath(repos[i].path)
    requires forall j :: 0 <= j < |repos| && (i < 0 || j < i) ==> !IsPrimaryPath(repos[j].path)
    ensures FirstPrimary(repos) == i
  {
  }

  /** The order the handler uses: the primary repository swapped to the front. */
  function Reordered(repos: seq<AnnotationRepository>): (r: seq<AnnotationRepository>)
    ensures |r| == |repos|
  {
    var idx := FirstPrimary(repos);
    if idx < 0 then repos else repos[0 := repos[idx]][idx := repos[0]]
  }

  /**
   * With a primary repository at `idx`, only slots 0 and `idx` trade places,
   * so the primary comes first and the same repositories remain; without one
   * nothing moves.
   */
  lemma ReorderedSpec(repos: seq<AnnotationRepository>)
    ensures var r := Reordered(repos);
            var idx := FirstPrimary(repos);
            && (idx < 0 ==> r == repos)
            && (0 <= idx ==> r[0] == repos[idx] && r[idx] == repos[0]
                             && (forall k :: 0 <= k < |repos| && k != 0 && k != idx ==> r[k] == repos[k])
                             && multiset(r) == multiset(repos))
  {
  }

  /**
   * Repositories loaded from different notes files share no object: they are
   * distinct, and no annotation is held twice, in one repository or in two.
   */
  ghost predicate Separate(repos: seq<AnnotationRepository>)
    reads set r | r in repos
  {
    && Distinct(repos)
    && (forall i :: 0 <= i < |repos| ==> Distinct(repos[i].annotations))
    && (forall i, j, a :: 0 <= i < |repos| && 0 <= j < |repos| && i != j && a in repos[i].annotations
                          ==> a !in repos[j].annotations)
  }

  /** Every annotation of the concatenation comes from one of the repositories. */
  lemma {:induction false} InAllAnnotations(repos: seq<AnnotationRepository>, a: Annotation)
    requires a in AllAnnotations(repos)
    ensures exists i :: 0 <= i < |repos| && a in repos[i].annotations
  {
    var n := |repos|;
    if a !in repos[n - 1].annotations {
      InAllAnnotations(repos[..n - 1], a);
      var i :| 0 <= i < n - 1 && a in repos[..n - 1][i].annotations;
      assert repos[i] == repos[..n - 1][i];
    }
  }

  /** Every annotation of every repository is in the concatenation. */
  lemma {:induction false} AllAnnotationsHas(repos: seq<AnnotationRepository>, i: nat, a: Annotation)
    requires i < |repos| && a in repos[i].annotations
    ensures a in AllAnnotations(repos)
  {
    var n := |repos|;
    if i < n - 1 {
      assert repos[..n - 1][i] == repos[i];
      AllAnnotationsHas(repos[..n - 1], i, a);
    }
  }

  /** Reordering the repositories brings in no annotation from elsewhere. */
  lemma ReorderedAnnotations(repos: seq<AnnotationRepository>)
    ensures forall a :: a in AllAnnotations(Reordered(repos)) ==> a in AllAnnotations(repos)
  {
    var r := Reordered(repos);
    forall a | a in AllAnnotations(r)
      ensures a in AllAnnotations(repos)
    {
      InAllAnnotations(r, a);
      var i :| 0 <= i < |r| && a in r[i].annotations;
      var idx := FirstPrimary(repos);
      var k := if idx < 0 then i else if i == 0 then idx else if i == idx then 0 else i;
      assert r[i] == repos[k];
      AllAnnotationsHas(repos, k, a);
    }
  }

  /** Separate repositories hold distinct annotations between them. */
  lemma {:induction false} SeparateDistinct(repos: seq<AnnotationRepository>)
    requires Separate(repos)
    ensures Distinct(AllAnnotations(repos))
  {
    if repos != [] {
      var n := |repos|;
      var init := repos[..n - 1];
      assert Separate(init) by {
        forall i, j, a | 0 <= i < |init| && 0 <= j < |init| && i != j && a in init[i].annotations
          ensures a !in init[j].annotations
        {
          assert init[i] == repos[i] && init[j] == repos[j];
        }
      }
      SeparateDistinct(init);
      forall a | a in AllAnnotations(init)
        ensures a !in repos[n - 1].annotations
      {
        InAllAnnotations(init, a);
        var i :| 0 <= i < |init| && a in init[i].annotations;
        assert init[i] == repos[i];
      }
      DistinctConcat(AllAnnotations(init), repos[n - 1].annotations);
    }
  }

  /** Swapping two repositories keeps them separate. */
  lemma SeparateSwap(repos: seq<AnnotationRepository>, idx: nat)
    requires Separate(repos) && idx < |repos|
    ensures Separate(repos[0 := repos[idx]][idx := repos[0]])
  {
    var r := repos[0 := repos[idx]][idx := repos[0]];
    var sw := (k: int) => if k == 0 then idx else if k == idx then 0 else k;
    assert forall k :: 0 <= k < |r| ==> r[k] == repos[sw(k)];
  }

  /** A new, empty repository in front keeps the repositories separate. */
  lemma SeparatePrepend(p: AnnotationRepository, repos: seq<AnnotationRepository>)
    requires Separate(repos) && p !in repos && p.annotations == []
    ensures Separate([p] + repos)
  {
    var r := [p] + repos;
    assert forall k :: 1 <= k < |r| ==> r[k] == repos[k - 1];
  }

  /** Repositories whose fields did not change hold the same annotations as before. */
  twostate lemma ReposUnchanged(repos: seq<AnnotationRepository>)
    requires forall r :: r in repos ==> old(allocated(r)) && unchanged(r)
    ensures AllAnnotations(repos) == old(AllAnnotations(repos))
    ensures Separate(repos) == old(Separate(repos))
  {
  }

  /** Annotations whose fields did not change have the same states as before. */
  twostate lemma StatesUnchanged(anns: seq<Annotation>)
    requires forall a :: a in anns ==> old(allocated(a)) && unchanged(a)
    ensures States(anns) == old(States(anns))
  {
  }

  /** A new, empty repository in front adds no annotation. */
  lemma {:induction false} AllAnnotationsPrepend(p: AnnotationRepository, repos: seq<AnnotationRepository>)
    requires p.annotations == []
    ensures AllAnnotations([p] + repos) == AllAnnotations(repos)
  {
    if repos != [] {
      var n := |repos|;
      assert ([p] + repos)[..n] == [p] + repos[..n - 1];
      AllAnnotationsPrepend(p, repos[..n - 1]);
    }
  }

  /** The annotations a run sees, in the handler's order of repositories. */
  ghost function OrderedAnnotations(repos: seq<AnnotationRepository>): seq<Annotation>
    reads set r | r in repos
  {
    var idx := FirstPrimary(repos);
    if idx < 0 then AllAnnotations(repos)
    else
      assert forall k :: 0 <= k < |repos| ==> Reordered(repos)[k] in repos;
      AllAnnotations(Reordered(repos))
  }

  /** The primary repository the project already has, if any: the only repository the run writes to. */
  function ExistingPrimary(repos: seq<AnnotationRepository>): set<AnnotationRepository> {
    var idx := FirstPrimary(repos);
    if idx < 0 then {} else {repos[idx]}
  }

  /**
   * GetAnnotationRepositories: the project's repositories with the primary one
   * first.  A project without one gets a new, empty primary repository in front.
   */
  method GetAnnotationRepositories(projectRepos: array<AnnotationRepository>, projectDir: string)
    returns (annRepos: array<AnnotationRepository>)
    modifies projectRepos
    ensures annRepos.Length >= 1 && IsPrimaryPath(annRepos[0].path)
    ensures FirstPrimary(old(projectRepos[..])) < 0 ==>
      && fresh(annRepos) && fresh(annRepos[0])
      && annRepos[0].path == PrimaryNotesPath(projectDir) && annRepos[0].annotations == []
      && annRepos[1..] == old(projectRepos[..]) && projectRepos[..] == old(projectRepos[..])
    ensures FirstPrimary(old(projectRepos[..])) >= 0 ==>
      annRepos == projectRepos && annRepos[..] == Reordered(old(projectRepos[..]))
  {
    if projectRepos.Length <= 0 {
      var primaryRepo := MakePrimaryAnnotationRepository(projectDir);
      annRepos := new AnnotationRepository[1](_ => primaryRepo);
      return;
    }
    var idx := FindPrimaryIndex(projectRepos);
    if idx < 0 {
      var primaryRepo := MakePrimaryAnnotationRepository(projectDir);
      var result := new AnnotationRepository[projectRepos.Length + 1](_ => primaryRepo);
      forall k | 0 <= k < projectRepos.Length {
        result[k + 1] := projectRepos[k];
      }
      annRepos := result;
    } else if idx == 0 {
      annRepos := projectRepos;
    } else {
      var primaryRepo := projectRepos[idx];
      projectRepos[idx] := projectRepos[0];
      projectRepos[0] := primaryRepo;
      annRepos := projectRepos;
    }
  }

  /** MakePrimaryAnnotationRepository: an empty repository for the stub's notes file. */
  method MakePrimaryAnnotationRepository(projectDir: string) returns (r: AnnotationRepository)
    ensures fresh(r) && r.path == PrimaryNotesPath(projectDir) && r.annotations == []
    ensures IsPrimaryPath(r.path)
  {
    PrimaryNotesPathIsPrimary(projectDir);
    r := new AnnotationRepository(PrimaryNotesPath(projectDir), []);
  }

  /**
   * The `chorusAnnotationsByGuid` dictionary, filled by hand over every
   * annotation of every repository: a repeated guid keeps the LAST annotation.
   */
  method BuildIndex(annRepos: array<AnnotationRepository>, ghost objs: seq<Annotation>)
    returns (index: map<string, Annotation>)
    requires objs == AllAnnotations(annRepos[..])
    ensures IndexOver(index, objs)
  {
    index := map[];
    ghost var seen: seq<Annotation> := [];
    var i := 0;
    while i < annRepos.Length
      invariant 0 <= i <= annRepos.Length
      invariant seen == AllAnnotations(annRepos[..i])
      invariant IndexOver(index, seen)
    {
      var anns := annRepos[i].annotations;
      index := IndexAnnotations(index, anns, seen);
      seen := seen + anns;
      assert annRepos[..i + 1][..i] == annRepos[..i];
      i := i + 1;
    }
    assert annRepos[..i] == annRepos[..];
  }

  /** The inner loop of the index: file each annotation of one repository under its guid. */
  method IndexAnnotations(index0: map<string, Annotation>, anns: seq<Annotation>, ghost seen: seq<Annotation>)
    returns (index: map<string, Annotation>)
    requires IndexOver(index0, seen)
    ensures IndexOver(index, seen + anns)
  {
    index := index0;
    ghost var cur := seen;
    var j := 0;
    while j < |anns|
      invariant 0 <= j <= |anns|
      invariant cur == seen + anns[..j]
      invariant IndexOver(index, cur)
    {
      var ann := anns[j];
      IndexSnoc(index, cur, ann);
      index := index[ann.guid := ann];
      cur := cur + [ann];
      assert anns[..j + 1] == anns[..j] + [ann];
      j := j + 1;
    }
    assert anns[..j] == anns;
  }

  /** The object index finds, under each guid, the annotation at the position the position index gives. */
  ghost predicate Finds(index: map<string, Annotation>, objs: seq<Annotation>, positions: map<string, nat>) {
    && index.Keys == positions.Keys
    && forall g :: g in index ==> positions[g] < |objs| && index[g] == objs[positions[g]]
  }

  /** `index` maps each guid of `seen` to the last annotation of `seen` carrying it. */
  ghost predicate IndexOver(index: map<string, Annotation>, seen: seq<Annotation>) {
    var positions := LastIndex(ObjGuids(seen));
    && index.Keys == positions.Keys
    && forall g :: g in index ==> index[g] == seen[positions[g]]
  }

  /** The guids of a list of annotations; they never change, so no state is read. */
  function ObjGuids(objs: seq<Annotation>): (r: seq<string>)
    ensures |r| == |objs|
    ensures forall i :: 0 <= i < |objs| ==> r[i] == objs[i].guid
  {
    if objs == [] then [] else ObjGuids(objs[..|objs| - 1]) + [objs[|objs| - 1].guid]
  }

  lemma ObjGuidsStates(objs: seq<Annotation>)
    ensures ObjGuids(objs) == Guids(States(objs))
  {
  }

  lemma ObjGuidsSnoc(seen: seq<Annotation>, ann: Annotation)
    ensures ObjGuids(seen + [ann]) == ObjGuids(seen) + [ann.guid]
  {
    assert (seen + [ann])[..|seen|] == seen;
  }

  /** Writing one more annotation into the index makes it the one its guid finds. */
  lemma IndexSnoc(index: map<string, Annotation>, seen: seq<Annotation>, ann: Annotation)
    requires IndexOver(index, seen)
    ensures IndexOver(index[ann.guid := ann], seen + [ann])
  {
    ObjGuidsSnoc(seen, ann);
    LastIndexSnoc(ObjGuids(seen), ann.guid);
    FindsSnoc(index, LastIndex(ObjGuids(seen)), seen, ann.guid, ann);
  }

  /** The run's view of the oracle and the guid parser. */
  function EnvOf(parse: string -> Option<string>, oracle: Oracle): Env {
    Env(parse, oracle.stream, oracle.now)
  }

  /** The first lines of CreateAnnotation: keep a parsable, non-zero incoming guid, otherwise draw a new one. */
  method ChooseGuid(guidStr: NString, parse: string -> Option<string>, oracle: Oracle) returns (guid: string)
    modifies oracle
    ensures (guid, oracle.issued) == AnnotationGuid(guidStr, EnvOf(parse, oracle), old(oracle.issued))
  {
    var parsed := if guidStr.Some? then parse(guidStr.value) else None;
    if parsed.Some? {
      guid := parsed.value;
      if guid == ZeroGuid {
        guid := oracle.NewGuid();
      }
    } else {
      guid := oracle.NewGuid();
    }
  }

  /** CreateAnnotation: a new "note" annotation whose only message is the comment's content. */
  method CreateAnnotation(content: NString, guidStr: NString, author: NString, status: NString,
                          ownerGuidStr: NString, ownerShortName: NString,
                          parse: string -> Option<string>, oracle: Oracle)
    returns (ann: Annotation)
    modifies oracle
    ensures fresh(ann)
    ensures var (a, n) := NewAnnotation(content, guidStr, author, status, ownerGuidStr, ownerShortName,
                                        EnvOf(parse, oracle), old(oracle.issued));
            ann.State() == a && oracle.issued == n
  {
    var guid := ChooseGuid(guidStr, parse, oracle);
    var who := AuthorOrGeneric(author);
    ann := new Annotation("note", MakeFlexRefURL(ownerGuidStr, ownerShortName), guid, oracle.now);
    var _ := ann.AddMessage(who, LfStatusToChorusStatus(status), content, oracle);
  }

  /**
   * The reply loop of SetChorusAnnotationMessagesFromLfReplies: every reply
   * neither deleted nor already known becomes a new message, and a reply that
   * came without a guid has its new guid recorded under its UniqId.
   */
  method AppendLfReplies(ann: Annotation, replies: seq<LfReply>, known: set<string>, statusToSet: string,
                         replyIds: StringDictionary, oracle: Oracle, ghost env: Env)
    requires env.stream == oracle.stream && env.now == oracle.now
    modifies ann, replyIds, oracle
    ensures var acc := AppendReplies(ReplyAcc(old(ann.messages), old(ann.status), old(replyIds.entries), old(oracle.issued)),
                                     known, statusToSet, replies, env);
            ann.State() == old(ann.State()).(messages := acc.messages, status := acc.status)
            && replyIds.entries == acc.replyIds && oracle.issued == acc.issued
  {
    ghost var acc0 := ReplyAcc(ann.messages, ann.status, replyIds.entries, oracle.issued);
    var i := 0;
    while i < |replies|
      invariant 0 <= i <= |replies|
      invariant ann.State() == old(ann.State()).(messages := ann.messages, status := ann.status)
      invariant AppendReplies(acc0, known, statusToSet, replies[..i], env)
                == ReplyAcc(ann.messages, ann.status, replyIds.entries, oracle.issued)
    {
      var reply := replies[i];
      assert replies[..i + 1] == replies[..i] + [reply];
      if !(reply.isDeleted || Present(known, reply.guid)) {
        var msg := ann.AddMessage(reply.authorName, statusToSet, reply.content, oracle);
        if (IsNullOrEmpty(reply.guid) || reply.guid == Some(ZeroGuid)) && !IsNullOrEmpty(reply.uniqId) {
          replyIds.SetItem(reply.uniqId.value, msg.guid.value);
        }
      }
      i := i + 1;
    }
    assert replies[..i] == replies;
  }

  /** The status reconciliation: a blank status already means open; any other difference is written. */
  method ReconcileStatus(ann: Annotation, statusToSet: string, oracle: Oracle)
    modifies ann, oracle
    ensures var w := StatusWrite(old(ann.status), statusToSet);
            && (w.None? ==> ann.State() == old(ann.State()) && oracle.issued == old(oracle.issued))
            && (w.Some? ==> ann.State() == old(ann.State()).(status := Some(w.value),
                              messages := old(ann.messages) + [StatusMessage(w.value, oracle.stream(old(oracle.issued)), oracle.now)])
                            && oracle.issued == old(oracle.issued) + 1)
  {
    if IsNullOrEmpty(ann.status) && statusToSet == Open {
      // nothing to write
    } else if Some(statusToSet) != ann.status {
      ann.SetStatus(Some(GenericAuthorName), statusToSet, oracle);
    }
  }

  /**
   * SetChorusAnnotationMessagesFromLfReplies: records the comment's ObjectId
   * when it came without a guid, appends the replies Chorus does not have yet,
   * records the new guids of replies that came without one, and brings the
   * status in line with the comment's.
   */
  method SetChorusAnnotationMessagesFromLfReplies(ann: Annotation, c: LfComment, objectId: NString,
                                                  replyIds: StringDictionary, commentIds: StringDictionary,
                                                  oracle: Oracle, ghost env: Env)
    requires replyIds != commentIds
    requires env.stream == oracle.stream && env.now == oracle.now
    modifies ann, replyIds, commentIds, oracle
    ensures var o := MergeReplies(old(ann.State()), c, objectId, old(commentIds.entries), old(replyIds.entries),
                                  old(oracle.issued), env);
            && ann.State() == o.ann && commentIds.entries == o.commentIds
            && replyIds.entries == o.replyIds && oracle.issued == o.issued
  {
    if IsNullOrEmpty(c.guid) && !IsNullOrEmpty(objectId) {
      commentIds.SetItem(objectId.value, ann.guid);
    }
    if c.replies.None? || |c.replies.value| <= 0 {
      return;
    }
    var known := ExistingMessageGuids(ann.messages);
    var statusToSet := LfStatusToChorusStatus(c.status);
    AppendLfReplies(ann, c.replies.value, known, statusToSet, replyIds, oracle, env);
    ReconcileStatus(ann, statusToSet, oracle);
  }

  /** The annotation objects hold the states `st` records: the existing ones by position, then the created ones. */
  ghost predicate Mirrors(objs: seq<Annotation>, created: seq<Annotation>, st: RunState)
    reads set a | a in objs, set a | a in created
  {
    && |objs| == |st.existing| && (forall k :: 0 <= k < |objs| ==> objs[k].State() == st.existing[k])
    && |created| == |st.created| && (forall k :: 0 <= k < |created| ==> created[k].State() == st.created[k])
  }

  /** The tables and the oracle hold what `st` records. */
  ghost predicate Tables(commentIds: StringDictionary, replyIds: StringDictionary, oracle: Oracle, st: RunState)
    reads commentIds, replyIds, oracle
  {
    commentIds.entries == st.commentIds && replyIds.entries == st.replyIds && oracle.issued == st.issued
  }

  /** The objects, the tables and the oracle together hold what `st` records. */
  ghost predicate Holds(objs: seq<Annotation>, created: seq<Annotation>, commentIds: StringDictionary,
                        replyIds: StringDictionary, oracle: Oracle, st: RunState)
    reads (set a | a in objs), (set a | a in created), commentIds, replyIds, oracle
  {
    Mirrors(objs, created, st) && Tables(commentIds, replyIds, oracle, st)
  }

  /** The matched branch of the main loop: merge into the annotation found, at position `p`. */
  method MergeIntoExisting(ann: Annotation, c: LfComment, objectId: NString,
                           replyIds: StringDictionary, commentIds: StringDictionary, oracle: Oracle,
                           ghost env: Env, ghost objs: seq<Annotation>, ghost created: seq<Annotation>,
                           ghost st: RunState, ghost p: nat)
    returns (line: Outcome)
    requires Distinct(objs) && p < |objs| && objs[p] == ann && ann !in created
    requires replyIds != commentIds && env.stream == oracle.stream && env.now == oracle.now
    requires Mirrors(objs, created, st) && Tables(commentIds, replyIds, oracle, st)
    modifies ann, replyIds, commentIds, oracle
    ensures var next := MergeStep(st, p, objectId, c, env);
            next.log == st.log + [line] && Holds(objs, created, commentIds, replyIds, oracle, next)
  {
    SetChorusAnnotationMessagesFromLfReplies(ann, c, objectId, replyIds, commentIds, oracle, env);
    line := Wrote(ann.guid, Texts(ann.messages), HasNoReplies(c));
  }

  /** The unmatched branch of the main loop: a new annotation, added to the primary repository. */
  method AddNewAnnotation(primaryRepo: AnnotationRepository, c: LfComment, objectId: NString,
                          replyIds: StringDictionary, commentIds: StringDictionary,
                          parse: string -> Option<string>, oracle: Oracle,
                          ghost objs: seq<Annotation>, ghost created: seq<Annotation>, ghost st: RunState)
    returns (ann: Annotation, line: Outcome)
    requires replyIds != commentIds
    requires Mirrors(objs, created, st) && Tables(commentIds, replyIds, oracle, st)
    modifies primaryRepo, replyIds, commentIds, oracle
    ensures fresh(ann) && primaryRepo.annotations == old(primaryRepo.annotations) + [ann]
    ensures var next := CreateStep(st, objectId, c, EnvOf(parse, oracle));
            next.log == st.log + [line] && Holds(objs, created + [ann], commentIds, replyIds, oracle, next)
  {
    ann := CreateAnnotation(c.content, c.guid, c.authorName, c.status, OwnerGuid(c), OwnerShortName(c), parse, oracle);
    assert Mirrors(objs, created, st);
    SetChorusAnnotationMessagesFromLfReplies(ann, c, objectId, replyIds, commentIds, oracle, EnvOf(parse, oracle));
    assert Mirrors(objs, created, st);
    line := Created(ann.guid, ann.refUrl, Texts(ann.messages), HasNoReplies(c));
    primaryRepo.AddAnnotation(ann);
    MirrorsSnoc(objs, created, st, ann);
  }

  /** One more created annotation, holding the state recorded last. */
  lemma MirrorsSnoc(objs: seq<Annotation>, created: seq<Annotation>, st: RunState, ann: Annotation)
    requires Mirrors(objs, created, st)
    ensures Mirrors(objs, created + [ann], st.(created := st.created + [ann.State()]))
  {
  }

  /**
   * `step` is one turn of the main loop as StepComment specifies it.  The
   * trigger keeps this fact from being used where StepComment is not mentioned.
   */
  ghost predicate IsStep(step: (RunState, Input) -> RunState, positions: map<string, nat>, env: Env) {
    forall s: RunState, x: Input {:trigger StepComment(s, positions, x, env)} ::
      IndexFits(positions, |s.existing|) ==> step(s, x) == StepComment(s, positions, x, env)
  }

  /** A run of the main loop over `batch`, one `step` per comment. */
  ghost function Fold(step: (RunState, Input) -> RunState, st: RunState, batch: seq<Input>): RunState {
    if batch == [] then st else step(Fold(step, st, batch[..|batch| - 1]), batch[|batch| - 1])
  }

  /** One more turn of the loop. */
  lemma FoldSnoc(step: (RunState, Input) -> RunState, st0: RunState, batch: seq<Input>, i: nat)
    requires i < |batch|
    ensures Fold(step, st0, batch[..i + 1]) == step(Fold(step, st0, batch[..i]), batch[i])
  {
    assert batch[..i + 1][..i] == batch[..i];
  }

  lemma {:induction false} FoldIsMergeAll(step: (RunState, Input) -> RunState, st0: RunState,
                                          positions: map<string, nat>, batch: seq<Input>, env: Env)
    requires IsStep(step, positions, env) && IndexFits(positions, |st0.existing|)
    ensures Fold(step, st0, batch) == MergeAll(st0, positions, batch, env)
  {
    if batch != [] {
      var done := batch[..|batch| - 1];
      FoldIsMergeAll(step, st0, positions, done, env);
      var mid := MergeAll(st0, positions, done, env);
      assert StepComment(mid, positions, batch[|batch| - 1], env) == step(mid, batch[|batch| - 1]);
    }
  }

  /** The step StepComment specifies, made total outside the positions it fits. */
  ghost function StepOf(positions: map<string, nat>, env: Env): (step: (RunState, Input) -> RunState)
    ensures IsStep(step, positions, env)
  {
    (s: RunState, x: Input) => if IndexFits(positions, |s.existing|) then StepComment(s, positions, x, env) else s
  }

  /** The main loop from the initial state is `Run`. */
  lemma FoldIsRun(existing: seq<AnnotationState>, batch: seq<Input>, env: Env, issued: nat)
    ensures Fold(StepOf(GuidIndex(existing), env), RunState(existing, [], [], [], issued, []), batch)
            == Run(existing, batch, env, issued)
  {
    FoldIsMergeAll(StepOf(GuidIndex(existing), env), RunState(existing, [], [], [], issued, []),
                   GuidIndex(existing), batch, env);
  }

  /**
   * One turn of the main loop: skip the comment, merge it, or make it a new
   * annotation.  `made` holds the annotation created, if any.
   */
  method ProcessComment(index: map<string, Annotation>, primaryRepo: AnnotationRepository, input: Input,
                        replyIds: StringDictionary, commentIds: StringDictionary,
                        parse: string -> Option<string>, oracle: Oracle,
                        ghost objs: seq<Annotation>, ghost created: seq<Annotation>,
                        ghost positions: map<string, nat>, ghost step: (RunState, Input) -> RunState,
                        ghost st: RunState)
    returns (line: Outcome, ghost made: seq<Annotation>)
    requires IsStep(step, positions, EnvOf(parse, oracle)) && IndexFits(positions, |st.existing|)
    requires Distinct(objs) && Finds(index, objs, positions)
    requires forall a :: a in created ==> a !in objs
    requires replyIds != commentIds
    requires Mirrors(objs, created, st) && Tables(commentIds, replyIds, oracle, st)
    modifies (set a | a in objs), primaryRepo, replyIds, commentIds, oracle
    ensures var next := step(st, input);
            && |next.existing| == |st.existing| && next.log == st.log + [line]
            && Mirrors(objs, created + made, next) && Tables(commentIds, replyIds, oracle, next)
    ensures |made| <= 1 && forall a :: a in made ==> fresh(a)
    ensures primaryRepo.annotations == old(primaryRepo.annotations) + made
  {
    ghost var repoAnns := primaryRepo.annotations;
    ghost var env := EnvOf(parse, oracle);
    ghost var next := StepComment(st, positions, input, env);
    assert next == step(st, input);
    var (objectId, comment) := input;
    made := [];
    if comment.None? {
      line := SkippedNull(objectId);
    } else if comment.value.isDeleted {
      line := SkippedDeleted(comment.value.guid, comment.value.content);
    } else {
      line, made := MergeLiveComment(index, primaryRepo, objectId, comment.value, replyIds, commentIds, parse, oracle,
                                     objs, created, positions, st);
    }
  }

  /** The live-comment branch of the main loop: merge into the annotation the guid finds, or create one. */
  method MergeLiveComment(index: map<string, Annotation>, primaryRepo: AnnotationRepository,
                          objectId: NString, c: LfComment,
                          replyIds: StringDictionary, commentIds: StringDictionary,
                          parse: string -> Option<string>, oracle: Oracle,
                          ghost objs: seq<Annotation>, ghost created: seq<Annotation>,
                          ghost positions: map<string, nat>, ghost st: RunState)
    returns (line: Outcome, ghost made: seq<Annotation>)
    requires !c.isDeleted && IndexFits(positions, |st.existing|)
    requires Distinct(objs) && Finds(index, objs, positions)
    requires forall a :: a in created ==> a !in objs
    requires replyIds != commentIds
    requires Mirrors(objs, created, st) && Tables(commentIds, replyIds, oracle, st)
    modifies (set a | a in objs), primaryRepo, replyIds, commentIds, oracle
    ensures var next := StepComment(st, positions, (objectId, Some(c)), EnvOf(parse, oracle));
            next.log == st.log + [line] && Holds(objs, created + made, commentIds, replyIds, oracle, next)
    ensures |made| <= 1 && forall a :: a in made ==> fresh(a)
    ensures primaryRepo.annotations == old(primaryRepo.annotations) + made
  {
    ghost var repoAnns := primaryRepo.annotations;
    ghost var env := EnvOf(parse, oracle);
    if c.guid.Some? && c.guid.value in index {
      var ann := index[c.guid.value];
      ghost var p := positions[c.guid.value];
      assert StepComment(st, positions, (objectId, Some(c)), env) == MergeStep(st, p, objectId, c, env);
      made := [];
      assert created + made == created;
      line := MergeIntoExisting(ann, c, objectId, replyIds, commentIds, oracle, env, objs, created, st, p);
      assert primaryRepo.annotations == repoAnns == repoAnns + made;
    } else {
      assert StepComment(st, positions, (objectId, Some(c)), env) == CreateStep(st, objectId, c, env);
      var ann;
      ann, line := AddNewAnnotation(primaryRepo, c, objectId, replyIds, commentIds, parse, oracle, objs, created, st);
      made := [ann];
    }
  }

  /**
   * The main loop of StartWorking: each live comment is merged into the
   * annotation its guid finds, or becomes a new annotation of the primary
   * repository, one `step` at a time.
   */
  method MergeLoop(index: map<string, Annotation>, primaryRepo: AnnotationRepository, batch: seq<Input>,
                   parse: string -> Option<string>, oracle: Oracle,
                   ghost objs: seq<Annotation>, ghost positions: map<string, nat>,
                   ghost step: (RunState, Input) -> RunState, ghost st0: RunState)
    returns (commentIds: Entries, replyIds: Entries, log: seq<Outcome>, ghost created: seq<Annotation>)
    requires IsStep(step, positions, EnvOf(parse, oracle)) && IndexFits(positions, |st0.existing|)
    requires Distinct(objs) && Finds(index, objs, positions)
    requires st0 == RunState(st0.existing, [], [], [], oracle.issued, [])
    requires Mirrors(objs, [], st0)
    modifies (set a | a in objs), primaryRepo, oracle
    ensures var r := Fold(step, st0, batch);
            && Mirrors(objs, created, r) && commentIds == r.commentIds && replyIds == r.replyIds
            && oracle.issued == r.issued && log == r.log
    ensures forall a :: a in created ==> fresh(a)
    ensures primaryRepo.annotations == old(primaryRepo.annotations) + created
  {
    var cIds := new StringDictionary();
    var rIds := new StringDictionary();
    log := [];
    created := [];
    ghost var st := st0;
    var i := 0;
    while i < |batch|
      invariant 0 <= i <= |batch|
      invariant st == Fold(step, st0, batch[..i]) && |st.existing| == |st0.existing|
      invariant Mirrors(objs, created, st) && Tables(cIds, rIds, oracle, st) && log == st.log
      invariant forall a :: a in created ==> fresh(a)
      invariant primaryRepo.annotations == old(primaryRepo.annotations) + created
    {
      var line;
      ghost var made;
      line, made := ProcessComment(index, primaryRepo, batch[i], rIds, cIds, parse, oracle,
                                   objs, created, positions, step, st);
      FoldSnoc(step, st0, batch, i);
      assert primaryRepo.annotations == old(primaryRepo.annotations) + (created + made);
      log := log + [line];
      st := step(st, batch[i]);
      created := created + made;
      i := i + 1;
    }
    assert batch[..i] == batch;
    commentIds := cIds.entries;
    replyIds := rIds.entries;
  }

  /**
   * StartWorking's merge over the repositories in handler order (primary
   * first): the index over all their annotations, then the main loop.  The
   * outcome is exactly `Run` over the annotations' states.
   */
  method MergeComments(annRepos: array<AnnotationRepository>, batch: seq<Input>,
                       parse: string -> Option<string>, oracle: Oracle)
    returns (commentIds: Entries, replyIds: Entries, log: seq<Outcome>, ghost created: seq<Annotation>)
    requires annRepos.Length >= 1
    requires Distinct(annRepos[..])
    requires Distinct(AllAnnotations(annRepos[..]))
    modifies annRepos[0], oracle, set a | a in AllAnnotations(annRepos[..])
    ensures var r := Run(old(States(AllAnnotations(annRepos[..]))), batch, EnvOf(parse, oracle), old(oracle.issued));
            && Mirrors(old(AllAnnotations(annRepos[..])), created, r)
            && commentIds == r.commentIds && replyIds == r.replyIds
            && oracle.issued == r.issued && log == r.log
    ensures annRepos[0].annotations == old(annRepos[0].annotations) + created
    ensures forall a :: a in created ==> fresh(a)
  {
    ghost var objs := AllAnnotations(annRepos[..]);
    ghost var st0 := RunState(States(objs), [], [], [], oracle.issued, []);
    ghost var positions := GuidIndex(st0.existing);
    ghost var step := StepOf(positions, EnvOf(parse, oracle));
    StartState(objs, st0);
    var index := BuildIndex(annRepos, objs);
    IndexFinds(index, objs);
    commentIds, replyIds, log, created := MergeLoop(index, annRepos[0], batch, parse, oracle, objs, positions, step, st0);
    assert Fold(step, st0, batch) == Run(st0.existing, batch, EnvOf(parse, oracle), st0.issued) by {
      FoldIsRun(st0.existing, batch, EnvOf(parse, oracle), st0.issued);
    }
  }

  /** Before the loop the objects hold the start state, and the spec's index has the objects' positions. */
  lemma StartState(objs: seq<Annotation>, st0: RunState)
    requires st0.existing == States(objs) && st0.created == []
    ensures Mirrors(objs, [], st0) && GuidIndex(st0.existing) == LastIndex(ObjGuids(objs))
  {
    ObjGuidsStates(objs);
  }

  /** The index built over `objs` finds each guid's last annotation. */
  lemma IndexFinds(index: map<string, Annotation>, objs: seq<Annotation>)
    requires IndexOver(index, objs)
    ensures Finds(index, objs, LastIndex(ObjGuids(objs)))
  {
  }

  /**
   * The first step of StartWorking: GetAnnotationRepositories, with what the
   * merge needs to know about the result.  The annotations are those of the
   * project, in the handler's order, unchanged, and distinct.
   */
  method ArrangeRepositories(projectRepos: array<AnnotationRepository>, projectDir: string)
    returns (annRepos: array<AnnotationRepository>)
    requires Separate(projectRepos[..])
    modifies projectRepos
    ensures annRepos.Length >= 1 && IsPrimaryPath(annRepos[0].path)
    ensures FirstPrimary(old(projectRepos[..])) < 0 ==>
      && fresh(annRepos[0]) && annRepos[0].path == PrimaryNotesPath(projectDir) && annRepos[0].annotations == []
      && annRepos[1..] == old(projectRepos[..])
    ensures FirstPrimary(old(projectRepos[..])) >= 0 ==> annRepos[..] == Reordered(old(projectRepos[..]))
    ensures Distinct(annRepos[..]) && Distinct(AllAnnotations(annRepos[..]))
    ensures AllAnnotations(annRepos[..]) == old(OrderedAnnotations(projectRepos[..]))
    ensures States(AllAnnotations(annRepos[..])) == old(States(OrderedAnnotations(projectRepos[..])))
    ensures forall a :: a in AllAnnotations(annRepos[..]) ==> a in old(AllAnnotations(projectRepos[..]))
  {
    ghost var repos0 := projectRepos[..];
    ghost var idx := FirstPrimary(repos0);
    ghost var ordered := OrderedAnnotations(repos0);
    assert Separate(Reordered(repos0)) by {
      if idx >= 0 {
        SeparateSwap(repos0, idx);
      }
    }
    ReorderedAnnotations(repos0);
    annRepos := GetAnnotationRepositories(projectRepos, projectDir);
    assert && Distinct(annRepos[..]) && Distinct(AllAnnotations(annRepos[..]))
           && AllAnnotations(annRepos[..]) == ordered && States(ordered) == old(States(ordered)) by {
      ReposUnchanged(Reordered(repos0));
      StatesUnchanged(ordered);
      if idx < 0 {
        assert annRepos[..] == [annRepos[0]] + repos0;
        AllAnnotationsPrepend(annRepos[0], repos0);
        SeparatePrepend(annRepos[0], repos0);
      }
      SeparateDistinct(annRepos[..]);
    }
  }

  /**
   * StartWorking once the comments are decoded and the project's
   * repositories are loaded: put the primary repository first (creating it
   * when missing), merge the batch, and report the new id mappings.
   */
  method StartWorking(projectRepos: array<AnnotationRepository>, projectDir: string, batch: seq<Input>,
                      parse: string -> Option<string>, oracle: Oracle)
    returns (annRepos: array<AnnotationRepository>, log: seq<Outcome>, report: seq<string>,
             ghost created: seq<Annotation>)
    requires Separate(projectRepos[..])
    modifies projectRepos, oracle, ExistingPrimary(projectRepos[..]), set a | a in AllAnnotations(projectRepos[..])
    ensures var r := Run(old(States(OrderedAnnotations(projectRepos[..]))), batch, EnvOf(parse, oracle), old(oracle.issued));
            && Mirrors(old(OrderedAnnotations(projectRepos[..])), created, r)
            && oracle.issued == r.issued && log == r.log
            && report == MappingReport(r.commentIds, r.replyIds)
    ensures annRepos.Length >= 1 && IsPrimaryPath(annRepos[0].path)
    ensures FirstPrimary(old(projectRepos[..])) < 0 ==>
      && fresh(annRepos[0]) && annRepos[0].path == PrimaryNotesPath(projectDir) && annRepos[0].annotations == created
      && annRepos[1..] == old(projectRepos[..])
    ensures FirstPrimary(old(projectRepos[..])) >= 0 ==>
      && annRepos[..] == Reordered(old(projectRepos[..]))
      && annRepos[0].annotations == old(projectRepos[FirstPrimary(projectRepos[..])].annotations) + created
    ensures forall a :: a in created ==> fresh(a)
  {
    annRepos := ArrangeRepositories(projectRepos, projectDir);
    var commentIds, replyIds;
    commentIds, replyIds, log, created := MergeComments(annRepos, batch, parse, oracle);
    report := MappingReport(commentIds, replyIds);
  }
}

=== FILE: write_properties.dfy ===
/** What the Language Forge -> Chorus notes merge guarantees, proved of module WriteSpec. */
module WriteProperties {
  import opened Wrappers
  import opened Text
  import opened IdMappings
  import opened ChorusNotes
  import opened LfRecords
  import opened WriteSpec

  /** A new annotation links to the comment's owner, or to `""` labelled `"???"` when the comment says nothing. */
  lemma NewAnnotationLink(c: LfComment, env: Env, issued: nat)
    requires forall j :: 0 <= j < |FormatArg(OwnerGuid(c))| ==> FormatArg(OwnerGuid(c))[j] != '&'
    ensures var a := NewAnnotation(c.content, c.guid, c.authorName, c.status, OwnerGuid(c), OwnerShortName(c), env, issued).0;
            && ParseFlexRef(a.refUrl) == Some((FormatArg(OwnerGuid(c)), FormatArg(OwnerShortName(c))))
            && (c.regarding.None? ==> ParseFlexRef(a.refUrl) == Some(("", UnknownLabel)))
  {
    FlexRefRoundTrip(OwnerGuid(c), OwnerShortName(c));
  }

  /** Every reply that is not deleted and not already present is appended. */
  lemma {:induction false} AppendedRepliesKeeps(known: set<string>, replies: seq<LfReply>, x: LfReply)
    requires x in replies && Appendable(known, x)
    ensures x in AppendedReplies(known, replies)
  {
    var last := replies[|replies| - 1];
    if x != last {
      assert replies == replies[..|replies| - 1] + [last];
      AppendedRepliesKeeps(known, replies[..|replies| - 1], x);
    }
  }

  /**
   * The reply loop appends one message per appendable reply, in input order,
   * after the existing thread, each with the next oracle guid and the
   * comment's mapped status.
   */
  lemma {:induction false} AppendRepliesThread(acc: ReplyAcc, known: set<string>, statusToSet: string, replies: seq<LfReply>, env: Env)
    ensures var added := AppendedReplies(known, replies);
            var res := AppendReplies(acc, known, statusToSet, replies, env);
            && res.messages == acc.messages + AppendedMessages(added, statusToSet, env, acc.issued)
            && res.issued == acc.issued + |added|
  {
    if replies != [] {
      var init := replies[..|replies| - 1];
      var x := replies[|replies| - 1];
      AppendRepliesThread(acc, known, statusToSet, init, env);
      var addedInit := AppendedReplies(known, init);
      if Appendable(known, x) {
        var added := addedInit + [x];
        assert AppendedReplies(known, replies) == added;
        assert AppendedMessages(added, statusToSet, env, acc.issued)
            == AppendedMessages(addedInit, statusToSet, env, acc.issued)
               + [ReplyMessage(x, statusToSet, env.stream(acc.issued + |addedInit|), env.now)];
      }
    }
  }

  /** One oracle guid per appended reply. */
  lemma {:induction false} AppendRepliesIssued(acc: ReplyAcc, known: set<string>, statusToSet: string, replies: seq<LfReply>, env: Env)
    ensures AppendReplies(acc, known, statusToSet, replies, env).issued == acc.issued + |AppendedReplies(known, replies)|
  {
    if replies != [] {
      AppendRepliesIssued(acc, known, statusToSet, replies[..|replies| - 1], env);
    }
  }

  /** The status is the comment's mapped status as soon as one message went in. */
  lemma {:induction false} AppendRepliesStatus(acc: ReplyAcc, known: set<string>, statusToSet: string, replies: seq<LfReply>, env: Env)
    ensures AppendReplies(acc, known, statusToSet, replies, env).status
            == if AppendedReplies(known, replies) == [] then acc.status else Some(statusToSet)
  {
    if replies != [] {
      AppendRepliesStatus(acc, known, statusToSet, replies[..|replies| - 1], env);
    }
  }

  /** The UniqId table receives exactly the pairs of ReplyMappings, in order. */
  lemma {:induction false} AppendRepliesIds(acc: ReplyAcc, known: set<string>, statusToSet: string, replies: seq<LfReply>, env: Env)
    ensures AppendReplies(acc, known, statusToSet, replies, env).replyIds
            == AssignAll(acc.replyIds, ReplyMappings(AppendedReplies(known, replies), env, acc.issued))
  {
    if replies != [] {
      var init := replies[..|replies| - 1];
      var x := replies[|replies| - 1];
      var addedInit := AppendedReplies(known, init);
      var resInit := AppendReplies(acc, known, statusToSet, init, env);
      var ps := ReplyMappings(addedInit, env, acc.issued);
      var added := AppendedReplies(known, replies);
      var res := AppendReply(resInit, known, statusToSet, x, env);
      assert AppendReplies(acc, known, statusToSet, replies, env) == res;
      assert resInit.replyIds == AssignAll(acc.replyIds, ps) by {
        AppendRepliesIds(acc, known, statusToSet, init, env);
      }
      assert resInit.issued == acc.issued + |addedInit| by {
        AppendRepliesIssued(acc, known, statusToSet, init, env);
      }
      if !Appendable(known, x) {
        assert added == addedInit;
      } else if !NeedsGuidMapping(x) {
        assert added == addedInit + [x];
        assert res.replyIds == resInit.replyIds;
        assert ReplyMappings(added, env, acc.issued) == ps by {
          ReplyMappingsSnoc(addedInit, x, env, acc.issued);
        }
      } else {
        assert added == addedInit + [x];
        var p := (x.uniqId.value, env.stream(acc.issued + |addedInit|));
        assert res.replyIds == Assign(resInit.replyIds, p.0, p.1);
        assert ReplyMappings(added, env, acc.issued) == ps + [p] by {
          ReplyMappingsSnoc(addedInit, x, env, acc.issued);
        }
        AssignAllSnoc(acc.replyIds, ps, p);
      }
    }
  }

  lemma AssignAllSnoc(d: Entries, ps: seq<(string, string)>, p: (string, string))
    ensures AssignAll(d, ps + [p]) == Assign(AssignAll(d, ps), p.0, p.1)
  {
    assert (ps + [p])[..|ps|] == ps;
  }

  lemma ReplyMappingsSnoc(added: seq<LfReply>, x: LfReply, env: Env, start: nat)
    ensures ReplyMappings(added + [x], env, start)
            == ReplyMappings(added, env, start) + (if NeedsGuidMapping(x) then [(x.uniqId.value, env.stream(start + |added|))] else [])
  {
    assert (added + [x])[..|added|] == added;
  }

  /** When no reply is appendable the loop leaves everything as it was. */
  lemma {:induction false} AppendRepliesNone(acc: ReplyAcc, known: set<string>, statusToSet: string, replies: seq<LfReply>, env: Env)
    requires AppendedReplies(known, replies) == []
    ensures AppendReplies(acc, known, statusToSet, replies, env) == acc
  {
    if replies != [] {
      AppendRepliesNone(acc, known, statusToSet, replies[..|replies| - 1], env);
    }
  }

  /** A rerun in which every live reply is already present appends nothing. */
  lemma {:induction false} NothingAppendedWhenAllPresent(known: set<string>, replies: seq<LfReply>)
    requires forall r :: r in replies && !r.isDeleted ==> Present(known, r.guid)
    ensures AppendedReplies(known, replies) == []
  {
    if replies != [] {
      assert replies[|replies| - 1] in replies;
      NothingAppendedWhenAllPresent(known, replies[..|replies| - 1]);
    }
  }

  /**
   * The set of guids already present is not refreshed inside the loop: two
   * new replies carrying the same guid are both appended.
   */
  lemma SameNewGuidAppendedTwice(known: set<string>, r1: LfReply, r2: LfReply)
    requires !r1.isDeleted && !r2.isDeleted
    requires r1.guid == r2.guid && r1.guid.Some? && r1.guid.value !in known
    ensures AppendedReplies(known, [r1, r2]) == [r1, r2]
  {
    assert [r1, r2][..1] == [r1];
    assert [r1][..0] == [];
  }

  /**
   * SetChorusAnnotationMessagesFromLfReplies: identity never changes; the
   * ObjectId entry is recorded even without replies; without replies nothing
   * else happens (status included); with replies the appendable ones are
   * appended after the existing thread and the status ends up meaning the
   * comment's status, a SetStatus write happening exactly when nothing was
   * appended and the current status did not already mean it; that write adds
   * one blank message with the next fresh guid.
   */
  lemma MergeRepliesSpec(ann: AnnotationState, c: LfComment, objectId: NString,
                         commentIds: Entries, replyIds: Entries, issued: nat, env: Env)
    ensures var o := MergeReplies(ann, c, objectId, commentIds, replyIds, issued, env);
            && o.ann.guid == ann.guid && o.ann.refUrl == ann.refUrl
            && o.ann.className == ann.className && o.ann.date == ann.date
            && o.commentIds == CommentIdsAfter(commentIds, c, objectId, ann.guid)
            && (HasNoReplies(c) ==>
                  o.ann == ann && o.replyIds == replyIds && o.issued == issued && !o.statusWritten)
            && (!HasNoReplies(c) ==>
                  var target := LfStatusToChorusStatus(c.status);
                  var added := AppendedReplies(ExistingMessageGuids(ann.messages), c.replies.value);
                  && o.ann.messages == ann.messages + AppendedMessages(added, target, env, issued)
                       + (if o.statusWritten then [StatusMessage(target, env.stream(issued + |added|), env.now)] else [])
                  && o.issued == issued + |added| + (if o.statusWritten then 1 else 0)
                  && o.replyIds == AssignAll(replyIds, ReplyMappings(added, env, issued))
                  && EquivalentStatus(o.ann.status, target)
                  && (o.statusWritten <==> added == [] && !EquivalentStatus(ann.status, target)))
  {
    if !HasNoReplies(c) {
      var target := LfStatusToChorusStatus(c.status);
      var acc := ReplyAcc(ann.messages, ann.status, replyIds, issued);
      var known := ExistingMessageGuids(ann.messages);
      AppendRepliesThread(acc, known, target, c.replies.value, env);
      AppendRepliesStatus(acc, known, target, c.replies.value, env);
      AppendRepliesIds(acc, known, target, c.replies.value, env);
    }
  }

  /**
   * A comment whose replies are all present already only brings the status in
   * line: a SetStatus write happens exactly when the current status does not
   * mean the comment's, and it is the thread's one new message.
   */
  lemma MergeRepliesStatusOnly(ann: AnnotationState, c: LfComment, objectId: NString,
                               commentIds: Entries, replyIds: Entries, issued: nat, env: Env)
    requires !HasNoReplies(c) && AppendedReplies(ExistingMessageGuids(ann.messages), c.replies.value) == []
    ensures var o := MergeReplies(ann, c, objectId, commentIds, replyIds, issued, env);
            var target := LfStatusToChorusStatus(c.status);
            && o.replyIds == replyIds
            && EquivalentStatus(o.ann.status, target)
            && (o.statusWritten <==> !EquivalentStatus(ann.status, target))
            && o.ann.messages == ann.messages + (if o.statusWritten then [StatusMessage(target, env.stream(issued), env.now)] else [])
            && o.issued == issued + (if o.statusWritten then 1 else 0)
  {
    MergeRepliesSpec(ann, c, objectId, commentIds, replyIds, issued, env);
    assert AppendedMessages([], LfStatusToChorusStatus(c.status), env, issued) == [];
  }

  /** A comment with no replies never changes the annotation's status, whatever its own status says. */
  lemma ReplylessCommentKeepsStatus(ann: AnnotationState, c: LfComment, objectId: NString,
                                    commentIds: Entries, replyIds: Entries, issued: nat, env: Env)
    requires HasNoReplies(c)
    ensures MergeReplies(ann, c, objectId, commentIds, replyIds, issued, env).ann.status == ann.status
  {
    MergeRepliesSpec(ann, c, objectId, commentIds, replyIds, issued, env);
  }

  /** The same comment with its replies' guids now known changes nothing the second time. */
  lemma MergeRepliesRerun(ann: AnnotationState, c: LfComment, c2: LfComment, objectId: NString,
                          commentIds: Entries, replyIds: Entries, issued: nat, env: Env,
                          commentIds2: Entries, replyIds2: Entries, issued2: nat)
    requires !HasNoReplies(c) && c2.status == c.status
    requires var first := MergeReplies(ann, c, objectId, commentIds, replyIds, issued, env).ann;
             forall r :: c2.replies.Some? && r in c2.replies.value && !r.isDeleted ==>
               Present(ExistingMessageGuids(first.messages), r.guid)
    ensures var first := MergeReplies(ann, c, objectId, commentIds, replyIds, issued, env).ann;
            var second := MergeReplies(first, c2, objectId, commentIds2, replyIds2, issued2, env);
            && second.ann == first && second.replyIds == replyIds2 && second.issued == issued2
            && !second.statusWritten
  {
    var first := MergeReplies(ann, c, objectId, commentIds, replyIds, issued, env).ann;
    var target := LfStatusToChorusStatus(c.status);
    var acc := ReplyAcc(ann.messages, ann.status, replyIds, issued);
    AppendRepliesStatus(acc, ExistingMessageGuids(ann.messages), target, c.replies.value, env);
    assert EquivalentStatus(first.status, target);
    if !HasNoReplies(c2) {
      var known := ExistingMessageGuids(first.messages);
      NothingAppendedWhenAllPresent(known, c2.replies.value);
      AppendRepliesNone(ReplyAcc(first.messages, first.status, replyIds2, issued2), known, target, c2.replies.value, env);
    }
  }


  /**
   * A live reply without a real guid is appendable against any thread: the
   * guids of the thread's messages never include a null, empty or zero guid.
   */
  lemma SentinelReplyAlwaysAppended(msgs: seq<Message>, replies: seq<LfReply>, r: LfReply)
    requires r in replies && !r.isDeleted && IsSentinelGuid(r.guid)
    ensures r in AppendedReplies(ExistingMessageGuids(msgs), replies)
  {
    AppendedRepliesKeeps(ExistingMessageGuids(msgs), replies, r);
  }

  /**
   * The merge does not repeat cleanly: the message written for a reply gets a
   * fresh guid, never the reply's own. A reply without a real guid, or with a
   * real guid the thread lacks (and the oracle does not happen to draw), is
   * appended again when the same comment is merged a second time.
   */
  lemma MergeRepliesTwiceAppendsTwice(ann: AnnotationState, c: LfComment, r: LfReply, objectId: NString,
                                      commentIds: Entries, replyIds: Entries, issued: nat, env: Env,
                                      commentIds2: Entries, replyIds2: Entries, issued2: nat)
    requires c.replies == Some([r]) && !r.isDeleted
    requires IsSentinelGuid(r.guid)
             || (!Present(ExistingMessageGuids(ann.messages), r.guid) && r.guid != Some(env.stream(issued)))
    ensures var target := LfStatusToChorusStatus(c.status);
            var first := MergeReplies(ann, c, objectId, commentIds, replyIds, issued, env);
            var second := MergeReplies(first.ann, c, objectId, commentIds2, replyIds2, issued2, env);
            && first.ann.messages == ann.messages + [ReplyMessage(r, target, env.stream(issued), env.now)]
            && second.ann.messages == first.ann.messages + [ReplyMessage(r, target, env.stream(issued2), env.now)]
  {
    var target := LfStatusToChorusStatus(c.status);
    var m := ReplyMessage(r, target, env.stream(issued), env.now);
    SentinelNeverPresent(ann.messages, r.guid);
    MergeOneReply(ann, c, r, objectId, commentIds, replyIds, issued, env);
    var first := MergeReplies(ann, c, objectId, commentIds, replyIds, issued, env);
    SentinelNeverPresent(first.ann.messages, r.guid);
    if !IsSentinelGuid(r.guid) {
      StillAbsent(ann.messages, m, r.guid);
    }
    MergeOneReply(first.ann, c, r, objectId, commentIds2, replyIds2, issued2, env);
  }

  /** A merge of one appendable reply appends exactly its message. */
  lemma MergeOneReply(ann: AnnotationState, c: LfComment, r: LfReply, objectId: NString,
                      commentIds: Entries, replyIds: Entries, issued: nat, env: Env)
    requires c.replies == Some([r]) && Appendable(ExistingMessageGuids(ann.messages), r)
    ensures MergeReplies(ann, c, objectId, commentIds, replyIds, issued, env).ann.messages
            == ann.messages + [ReplyMessage(r, LfStatusToChorusStatus(c.status), env.stream(issued), env.now)]
  {
    assert AppendedReplies(ExistingMessageGuids(ann.messages), [r]) == [r] by {
      assert [r][..0] == [];
    }
    MergeRepliesSpec(ann, c, objectId, commentIds, replyIds, issued, env);
    assert AppendedMessages([r], LfStatusToChorusStatus(c.status), env, issued)
           == [ReplyMessage(r, LfStatusToChorusStatus(c.status), env.stream(issued), env.now)];
  }

  /** A null, empty or zero guid is never among a thread's known guids. */
  lemma SentinelNeverPresent(msgs: seq<Message>, g: NString)
    ensures IsSentinelGuid(g) ==> !Present(ExistingMessageGuids(msgs), g)
  {
  }

  /** Appending a message with another guid leaves a missing guid missing. */
  lemma StillAbsent(msgs: seq<Message>, m: Message, g: NString)
    requires !Present(ExistingMessageGuids(msgs), g) && m.guid != g
    ensures !Present(ExistingMessageGuids(msgs + [m]), g)
  {
    assert ExistingMessageGuids(msgs + [m]) == ExistingMessageGuids(msgs) + ExistingMessageGuids([m]);
  }

  /** A null or deleted comment only adds its line to the log. */
  lemma StepSkipped(st: RunState, index: map<string, nat>, input: Input, env: Env)
    requires IndexFits(index, |st.existing|)
    requires !Live(input.1)
    ensures var r := StepComment(st, index, input, env);
            r.(log := st.log) == st && |r.log| == |st.log| + 1
  {
  }

  /** `b` is `a` with possibly more messages appended, and the same identity. */
  predicate Extends(a: AnnotationState, b: AnnotationState) {
    && a.guid == b.guid && a.refUrl == b.refUrl && a.className == b.className && a.date == b.date
    && |a.messages| <= |b.messages| && b.messages[..|a.messages|] == a.messages
  }

  /**
   * A matched comment creates no annotation and only extends the matched
   * annotation (the last one indexed under its guid); every other annotation
   * is untouched.
   */
  lemma StepMatched(st: RunState, index: map<string, nat>, input: Input, env: Env)
    requires IndexFits(index, |st.existing|)
    requires Live(input.1) && Matched(index, input.1.value)
    ensures var r := StepComment(st, index, input, env);
            var p := index[input.1.value.guid.value];
            && r.created == st.created
            && Extends(st.existing[p], r.existing[p])
            && (forall k :: 0 <= k < |st.existing| && k != p ==> r.existing[k] == st.existing[k])
  {
    var c := input.1.value;
    var p := index[c.guid.value];
    MergeRepliesSpec(st.existing[p], c, input.0, st.commentIds, st.replyIds, st.issued, env);
  }

  /**
   * An unmatched live comment adds exactly one annotation, to the primary
   * repository, built by CreateAnnotation and then given the comment's replies.
   */
  lemma StepUnmatched(st: RunState, index: map<string, nat>, input: Input, env: Env)
    requires IndexFits(index, |st.existing|)
    requires Live(input.1) && !Matched(index, input.1.value)
    ensures var r := StepComment(st, index, input, env);
            var c := input.1.value;
            var (a, n) := NewAnnotation(c.content, c.guid, c.authorName, c.status, OwnerGuid(c), OwnerShortName(c), env, st.issued);
            && r.existing == st.existing
            && |r.created| == |st.created| + 1 && r.created[..|st.created|] == st.created
            && r.created[|st.created|] == MergeReplies(a, c, input.0, st.commentIds, st.replyIds, n, env).ann
            && Extends(a, r.created[|st.created|])
            && r.commentIds == CommentIdsAfter(st.commentIds, c, input.0, a.guid)
  {
    var c := input.1.value;
    var (a, n) := NewAnnotation(c.content, c.guid, c.authorName, c.status, OwnerGuid(c), OwnerShortName(c), env, st.issued);
    MergeRepliesSpec(a, c, input.0, st.commentIds, st.replyIds, n, env);
  }

  /** How many comments of a batch create an annotation. */
  function CreatingComments(index: map<string, nat>, batch: seq<Input>): nat {
    if batch == [] then 0
    else
      var x := batch[|batch| - 1].1;
      CreatingComments(index, batch[..|batch| - 1]) + (if Live(x) && !Matched(index, x.value) then 1 else 0)
  }

  lemma ExtendsTrans(a: AnnotationState, b: AnnotationState, c: AnnotationState)
    requires Extends(a, b) && Extends(b, c)
    ensures Extends(a, c)
  {
    assert c.messages[..|a.messages|] == c.messages[..|b.messages|][..|a.messages|];
  }

  /**
   * Over a whole batch: one log line per comment; one new annotation per live
   * unmatched comment; annotations present before the run keep their identity
   * and their thread, only gaining messages at the end.
   */
  lemma {:induction false} MergeAllSpec(st: RunState, index: map<string, nat>, batch: seq<Input>, env: Env)
    requires IndexFits(index, |st.existing|)
    ensures var r := MergeAll(st, index, batch, env);
            && |r.log| == |st.log| + |batch|
            && |r.created| == |st.created| + CreatingComments(index, batch)
            && r.created[..|st.created|] == st.created
            && forall k :: 0 <= k < |st.existing| ==> Extends(st.existing[k], r.existing[k])
  {
    if batch == [] {
      forall k | 0 <= k < |st.existing| ensures Extends(st.existing[k], st.existing[k]) {
        assert st.existing[k].messages[..|st.existing[k].messages|] == st.existing[k].messages;
      }
    } else {
      var init := batch[..|batch| - 1];
      var input := batch[|batch| - 1];
      MergeAllSpec(st, index, init, env);
      var mid := MergeAll(st, index, init, env);
      var r := StepComment(mid, index, input, env);
      if !Live(input.1) {
        StepSkipped(mid, index, input, env);
        assert r.existing == mid.existing && r.created == mid.created;
      } else if Matched(index, input.1.value) {
        StepMatched(mid, index, input, env);
        var p := index[input.1.value.guid.value];
        forall k | 0 <= k < |st.existing| ensures Extends(st.existing[k], r.existing[k]) {
          if k == p { ExtendsTrans(st.existing[k], mid.existing[k], r.existing[k]); }
        }
      } else {
        StepUnmatched(mid, index, input, env);
        assert r.created[..|st.created|] == mid.created[..|st.created|];
      }
    }
  }

  /**
   * The guid index is built once: two live comments with the same guid that
   * is not in it both create an annotation, even though the first one created
   * an annotation with that very guid.
   */
  lemma IndexNotRefreshed(st: RunState, index: map<string, nat>, a: Input, b: Input, env: Env)
    requires IndexFits(index, |st.existing|)
    requires Live(a.1) && Live(b.1) && a.1.value.guid == b.1.value.guid
    requires UsesIncomingGuid(a.1.value.guid, env.parse) && a.1.value.guid.value !in index
    ensures var r := MergeAll(st, index, [a, b], env);
            && |r.created| == |st.created| + 2
            && r.created[|st.created|].guid == r.created[|st.created| + 1].guid == env.parse(a.1.value.guid.value).value
  {
    var batch := [a, b];
    assert batch[..1] == [a];
    assert [a][..0] == [];
    var mid := StepComment(st, index, a, env);
    assert MergeAll(st, index, [a], env) == mid;
    StepUnmatched(st, index, a, env);
    StepUnmatched(mid, index, b, env);
  }
}

=== FILE: write_spec.dfy ===
/**
 * Reference definitions for the Language Forge -> Chorus notes merge
 * (LanguageForgeWriteToChorusNotesActionHandler): the pure helpers of the
 * handler, and the whole merge run expressed over annotation states.  The
 * imperative handler in module WriteHandler is proved to compute exactly
 * this; module WriteProperties proves what it guarantees.
 */
module WriteSpec {
  import opened Wrappers
  import opened Text
  import opened Seqs
  import opened IdMappings
  import opened ChorusNotes
  import opened LfRecords

  const MainNotesFilenameStub: string := "Lexicon.fwstub"
  const ChorusNotesExt: string := ".ChorusNotes"
  const MainNotesFilename: string := MainNotesFilenameStub + ChorusNotesExt
  const ZeroGuid: string := "00000000-0000-0000-0000-000000000000"
  const GenericAuthorName: string := "Language Forge"
  const RefPrefix: string := "silfw://localhost/link?app=flex&database=current&server=&tool=default&guid="
  /** FLEx's short name for an object it cannot name. */
  const UnknownLabel: string := "???"

  /** What a run may consult besides its inputs: `Guid.TryParse` (giving the canonical text), `Guid.NewGuid`, the clock. */
  datatype Env = Env(parse: string -> Option<string>, stream: nat -> string, now: Date)

  /** LfStatusToChorusStatus: Resolved becomes Closed, anything else Open. */
  function LfStatusToChorusStatus(lfStatus: NString): (r: string)
    ensures r == Closed <==> lfStatus == Some(Resolved)
    ensures r == Open <==> lfStatus != Some(Resolved)
  {
    if lfStatus == Some(Resolved) then Closed else Open
  }

  /** The separators of a FLEx link: between the guid and the id, and before the label. */
  const IdSeparator: string := "&tag=&id="
  const LabelSeparator: string := "&label="

  /** MakeFlexRefURL: the FLEx link to the annotated object. */
  function MakeFlexRefURL(guidStr: NString, shortName: NString): string {
    RefPrefix + FormatArg(guidStr) + IdSeparator + FormatArg(guidStr) + LabelSeparator + FormatArg(shortName)
  }

  /** Reads the owner guid and the label back out of a link MakeFlexRefURL built. */
  function ParseFlexRef(url: string): Option<(string, string)> {
    if |url| < |RefPrefix| || url[..|RefPrefix|] != RefPrefix then None
    else ParseFlexRefTail(url[|RefPrefix|..])
  }

  /** The part of ParseFlexRef after the fixed prefix: the guid runs up to the first `&`. */
  function ParseFlexRefTail(rest: string): Option<(string, string)> {
    var i := FirstIndexOf(rest, '&');
    var g := rest[..i];
    var mid := IdSeparator + g + LabelSeparator;
    var tail := rest[i..];
    if |tail| < |mid| || tail[..|mid|] != mid then None
    else Some((g, tail[|mid|..]))
  }

  /** The link names its owner and label recoverably, provided the owner guid has no `&`. */
  lemma FlexRefRoundTrip(guidStr: NString, shortName: NString)
    requires forall j :: 0 <= j < |FormatArg(guidStr)| ==> FormatArg(guidStr)[j] != '&'
    ensures ParseFlexRef(MakeFlexRefURL(guidStr, shortName)) == Some((FormatArg(guidStr), FormatArg(shortName)))
  {
    var g, s := FormatArg(guidStr), FormatArg(shortName);
    var rest := g + (IdSeparator + g + LabelSeparator + s);
    assert MakeFlexRefURL(guidStr, shortName) == RefPrefix + rest;
    Peel(RefPrefix, rest);
    FlexRefTailRoundTrip(g, s);
  }

  lemma FlexRefTailRoundTrip(g: string, s: string)
    requires forall j :: 0 <= j < |g| ==> g[j] != '&'
    ensures ParseFlexRefTail(g + (IdSeparator + g + LabelSeparator + s)) == Some((g, s))
  {
    var mid := IdSeparator + g + LabelSeparator;
    var tail := mid + s;
    assert IdSeparator[0] == '&';
    assert tail == ['&'] + tail[1..];
    assert g + tail == g + ['&'] + tail[1..];
    FirstIndexAfter(g, '&', tail[1..]);
    Peel(g, tail);
    Peel(mid, s);
  }

  /** Cutting a concatenation where it was joined gives back its parts. */
  lemma Peel(a: string, b: string)
    ensures (a + b)[..|a|] == a && (a + b)[|a|..] == b
  {
  }

  /** Owner guid and label of a new annotation: `""` and `"???"` when `Regarding` is null. */
  function OwnerGuid(c: LfComment): NString {
    if c.regarding.None? then Some("") else c.regarding.value.targetGuid
  }

  function OwnerShortName(c: LfComment): NString {
    if c.regarding.None? then Some(UnknownLabel) else c.regarding.value.word
  }

  /** CreateAnnotation keeps the incoming guid when it parses to a non-zero guid. */
  predicate UsesIncomingGuid(guidStr: NString, parse: string -> Option<string>) {
    guidStr.Some? && parse(guidStr.value).Some? && parse(guidStr.value).value != ZeroGuid
  }

  /** A blank author is written as the generic "Language Forge". */
  function AuthorOrGeneric(author: NString): NString {
    if IsNullOrEmpty(author) then Some(GenericAuthorName) else author
  }

  /** The guid of a new annotation: the incoming one when it parses and is not all zeros, else a new one; and the next oracle index. */
  function AnnotationGuid(guidStr: NString, env: Env, issued: nat): (string, nat) {
    if UsesIncomingGuid(guidStr, env.parse) then (env.parse(guidStr.value).value, issued)
    else (env.stream(issued), issued + 1)
  }

  /**
   * CreateAnnotation: a "note" annotation whose only message is the comment's
   * content.  Returns the annotation and the next unused oracle index.
   */
  function NewAnnotation(content: NString, guidStr: NString, author: NString, status: NString,
                         ownerGuid: NString, ownerShortName: NString, env: Env, issued: nat): (r: (AnnotationState, nat))
    ensures UsesIncomingGuid(guidStr, env.parse) ==> r.0.guid == env.parse(guidStr.value).value && r.1 == issued + 1
    ensures !UsesIncomingGuid(guidStr, env.parse) ==> r.0.guid == env.stream(issued) && r.1 == issued + 2
    ensures NeverSentinel(env.stream, ZeroGuid) ==> r.0.guid != ZeroGuid
    ensures |r.0.messages| == 1 && r.0.messages[0].text == content
    ensures r.0.status == r.0.messages[0].status == Some(LfStatusToChorusStatus(status))
    ensures r.0.className == "note"
    ensures IsNullOrEmpty(author) ==> r.0.messages[0].author == Some(GenericAuthorName)
    ensures !IsNullOrEmpty(author) ==> r.0.messages[0].author == author
    ensures r.0.refUrl == MakeFlexRefURL(ownerGuid, ownerShortName)
  {
    var (guid, n) := AnnotationGuid(guidStr, env, issued);
    var who := AuthorOrGeneric(author);
    var s := LfStatusToChorusStatus(status);
    var url := MakeFlexRefURL(ownerGuid, ownerShortName);
    (AnnotationState("note", url, guid, env.now, Some(s), [Message(Some(env.stream(n)), who, Some(s), content, env.now)]), n + 1)
  }

  /** A Chorus status that already means `target`: equal, or blank when `target` is Open. */
  predicate EquivalentStatus(current: NString, target: string) {
    current == Some(target) || (IsNullOrEmpty(current) && target == Open)
  }

  /** The status reconciliation at the end of SetChorusAnnotationMessagesFromLfReplies: the status to write, if any. */
  function StatusWrite(current: NString, target: string): (r: Option<string>)
    ensures r.None? <==> EquivalentStatus(current, target)
    ensures r.Some? ==> r.value == target
  {
    if IsNullOrEmpty(current) && target == Open then None
    else if current != Some(target) then Some(target)
    else None
  }

  /** The blank message SetStatus adds to record a status change, by the generic author. */
  function StatusMessage(status: string, g: string, now: Date): Message {
    Message(Some(g), Some(GenericAuthorName), Some(status), Some(""), now)
  }

  /** Null, empty and the all-zero guid all mean "no guid yet". */
  predicate IsSentinelGuid(g: NString) {
    IsNullOrEmpty(g) || g == Some(ZeroGuid)
  }

  /** The guids of the messages an annotation already has, sentinels left out. */
  function ExistingMessageGuids(msgs: seq<Message>): set<string> {
    set m | m in msgs && !IsSentinelGuid(m.guid) :: m.guid.value
  }

  /** A reply the merge appends: not deleted and not already there. */
  predicate Appendable(known: set<string>, r: LfReply) {
    !r.isDeleted && !Present(known, r.guid)
  }

  /** An appended reply whose new guid must be reported back under its UniqId. */
  predicate NeedsGuidMapping(r: LfReply) {
    IsSentinelGuid(r.guid) && !IsNullOrEmpty(r.uniqId)
  }

  /** The replies the reply loop appends, in input order. */
  function AppendedReplies(known: set<string>, replies: seq<LfReply>): (r: seq<LfReply>)
    ensures |r| <= |replies|
    ensures forall x :: x in r ==> x in replies && Appendable(known, x)
  {
    if replies == [] then []
    else
      var x := replies[|replies| - 1];
      AppendedReplies(known, replies[..|replies| - 1]) + (if Appendable(known, x) then [x] else [])
  }

  /** The state the reply loop threads: the thread, the status, the UniqId table and the oracle index. */
  datatype ReplyAcc = ReplyAcc(messages: seq<Message>, status: NString, replyIds: Entries, issued: nat)

  /** One turn of the reply loop. */
  function AppendReply(acc: ReplyAcc, known: set<string>, statusToSet: string, r: LfReply, env: Env): ReplyAcc {
    if !Appendable(known, r) then acc
    else
      var g := env.stream(acc.issued);
      var m := Message(Some(g), r.authorName, Some(statusToSet), r.content, env.now);
      var ids := if NeedsGuidMapping(r) then Assign(acc.replyIds, r.uniqId.value, g) else acc.replyIds;
      ReplyAcc(acc.messages + [m], Some(statusToSet), ids, acc.issued + 1)
  }

  /** The whole reply loop; `known` is computed once, before the loop. */
  function AppendReplies(acc: ReplyAcc, known: set<string>, statusToSet: string, replies: seq<LfReply>, env: Env): ReplyAcc {
    if replies == [] then acc
    else AppendReply(AppendReplies(acc, known, statusToSet, replies[..|replies| - 1], env), known, statusToSet, replies[|replies| - 1], env)
  }

  /** The message the merge writes for an appended reply. */
  function ReplyMessage(r: LfReply, statusToSet: string, g: string, now: Date): Message {
    Message(Some(g), r.authorName, Some(statusToSet), r.content, now)
  }

  /** The messages written for `added`, drawing guids from the oracle from index `start` on. */
  function AppendedMessages(added: seq<LfReply>, statusToSet: string, env: Env, start: nat): (r: seq<Message>)
    ensures |r| == |added|
  {
    seq(|added|, j requires 0 <= j < |added| => ReplyMessage(added[j], statusToSet, env.stream(start + j), env.now))
  }

  /** The UniqId -> guid pairs recorded for `added`, in order. */
  function ReplyMappings(added: seq<LfReply>, env: Env, start: nat): seq<(string, string)> {
    if added == [] then []
    else
      var x := added[|added| - 1];
      ReplyMappings(added[..|added| - 1], env, start)
        + (if NeedsGuidMapping(x) then [(x.uniqId.value, env.stream(start + |added| - 1))] else [])
  }

  /** The comment's ObjectId -> guid entry, recorded when the comment came without a guid. */
  function CommentIdsAfter(commentIds: Entries, c: LfComment, objectId: NString, annGuid: string): Entries {
    if IsNullOrEmpty(c.guid) && !IsNullOrEmpty(objectId) then Assign(commentIds, objectId.value, annGuid) else commentIds
  }

  datatype MergeOutcome = MergeOutcome(ann: AnnotationState, commentIds: Entries, replyIds: Entries, issued: nat, statusWritten: bool)

  /** SetChorusAnnotationMessagesFromLfReplies, on annotation states. */
  function MergeReplies(ann: AnnotationState, c: LfComment, objectId: NString,
                        commentIds: Entries, replyIds: Entries, issued: nat, env: Env): MergeOutcome {
    var cIds := CommentIdsAfter(commentIds, c, objectId, ann.guid);
    if HasNoReplies(c) then MergeOutcome(ann, cIds, replyIds, issued, false)
    else
      var target := LfStatusToChorusStatus(c.status);
      var known := ExistingMessageGuids(ann.messages);
      var acc := AppendReplies(ReplyAcc(ann.messages, ann.status, replyIds, issued), known, target, c.replies.value, env);
      var w := StatusWrite(acc.status, target);
      if w.None? then MergeOutcome(ann.(messages := acc.messages, status := acc.status), cIds, acc.replyIds, acc.issued, false)
      else
        var m := StatusMessage(w.value, env.stream(acc.issued), env.now);
        MergeOutcome(ann.(messages := acc.messages + [m], status := Some(w.value)), cIds, acc.replyIds, acc.issued + 1, true)
  }

  /** The structure of one line of the handler's progress text. */
  datatype Outcome =
    | SkippedNull(objectId: NString)
    | SkippedDeleted(commentGuid: NString, content: NString)
    | Wrote(guid: string, texts: seq<NString>, noReplies: bool)
    | Created(guid: string, refUrl: string, texts: seq<NString>, noReplies: bool)

  function Texts(msgs: seq<Message>): seq<NString> {
    Map((m: Message) => m.text, msgs)
  }

  /** The guid -> position index over the annotations present before the run (last one wins). */
  function GuidIndex(existing: seq<AnnotationState>): (index: map<string, nat>)
    ensures forall g :: g in index ==> index[g] < |existing| && existing[index[g]].guid == g
    ensures forall k :: 0 <= k < |existing| ==> existing[k].guid in index && k <= index[existing[k].guid]
  {
    LastIndex(Guids(existing))
  }

  /** One input pair: the comment's ObjectId and the comment, which may be null. */
  type Input = (NString, Option<LfComment>)

  /** A live comment: not null and not deleted. */
  predicate Live(comment: Option<LfComment>) {
    comment.Some? && !comment.value.isDeleted
  }

  /** A comment the index matches: its non-null guid is a key. */
  predicate Matched(index: map<string, nat>, c: LfComment) {
    c.guid.Some? && c.guid.value in index
  }

  /**
   * The state of a run: the annotations present before it (by position), the
   * annotations it appended to the primary repository, the two mapping
   * tables, the oracle index and the progress log.
   */
  datatype RunState = RunState(
    existing: seq<AnnotationState>,
    created: seq<AnnotationState>,
    commentIds: Entries,
    replyIds: Entries,
    issued: nat,
    log: seq<Outcome>)

  predicate IndexFits(index: map<string, nat>, n: nat) {
    forall g :: g in index ==> index[g] < n
  }

  /** One turn of the main loop of StartWorking. */
  function StepComment(st: RunState, index: map<string, nat>, input: Input, env: Env): (r: RunState)
    requires IndexFits(index, |st.existing|)
    ensures |r.existing| == |st.existing|
  {
    var (objectId, comment) := input;
    if comment.None? then st.(log := st.log + [SkippedNull(objectId)])
    else
      var c := comment.value;
      if c.isDeleted then st.(log := st.log + [SkippedDeleted(c.guid, c.content)])
      else if Matched(index, c) then MergeStep(st, index[c.guid.value], objectId, c, env)
      else CreateStep(st, objectId, c, env)
  }

  /** A live comment whose guid finds the existing annotation at position `p`: its replies are merged into it. */
  function MergeStep(st: RunState, p: nat, objectId: NString, c: LfComment, env: Env): (r: RunState)
    requires p < |st.existing|
    ensures |r.existing| == |st.existing|
  {
    var o := MergeReplies(st.existing[p], c, objectId, st.commentIds, st.replyIds, st.issued, env);
    RunState(st.existing[p := o.ann], st.created, o.commentIds, o.replyIds, o.issued,
             st.log + [Wrote(o.ann.guid, Texts(o.ann.messages), HasNoReplies(c))])
  }

  /** A live comment that finds no annotation: a new one is made and its replies merged into it. */
  function CreateStep(st: RunState, objectId: NString, c: LfComment, env: Env): (r: RunState)
    ensures r.existing == st.existing && |r.created| == |st.created| + 1
  {
    var (a, n) := NewAnnotation(c.content, c.guid, c.authorName, c.status, OwnerGuid(c), OwnerShortName(c), env, st.issued);
    var o := MergeReplies(a, c, objectId, st.commentIds, st.replyIds, n, env);
    RunState(st.existing, st.created + [o.ann], o.commentIds, o.replyIds, o.issued,
             st.log + [Created(o.ann.guid, o.ann.refUrl, Texts(o.ann.messages), HasNoReplies(c))])
  }

  /** The main loop over a batch; the index is built once, before the loop. */
  function MergeAll(st: RunState, index: map<string, nat>, batch: seq<Input>, env: Env): (r: RunState)
    requires IndexFits(index, |st.existing|)
    ensures |r.existing| == |st.existing|
  {
    if batch == [] then st
    else StepComment(MergeAll(st, index, batch[..|batch| - 1], env), index, batch[|batch| - 1], env)
  }

  const CommentMappingsLabel: string := "New comment ID->Guid mappings: "
  const ReplyMappingsLabel: string := "New reply ID->Guid mappings: "

  /** The two closing lines of the progress text: the new comment ids, then the new reply ids, with their guids. */
  function MappingReport(commentIds: Entries, replyIds: Entries): seq<string> {
    [CommentMappingsLabel + Format(commentIds), ReplyMappingsLabel + Format(replyIds)]
  }

  /** A reader that strips the labels and parses the rest gets both tables back. */
  lemma MappingReportReadBack(commentIds: Entries, replyIds: Entries)
    requires Plain(commentIds) && Plain(replyIds)
    ensures var report := MappingReport(commentIds, replyIds);
            && |report| == 2
            && report[0][..|CommentMappingsLabel|] == CommentMappingsLabel
            && Parse(report[0][|CommentMappingsLabel|..]) == commentIds
            && report[1][..|ReplyMappingsLabel|] == ReplyMappingsLabel
            && Parse(report[1][|ReplyMappingsLabel|..]) == replyIds
  {
    Peel(CommentMappingsLabel, Format(commentIds));
    Peel(ReplyMappingsLabel, Format(replyIds));
    FormatParse(commentIds);
    FormatParse(replyIds);
  }

  /** A whole run against the annotations `existing`, with the oracle at index `issued`. */
  function Run(existing: seq<AnnotationState>, batch: seq<Input>, env: Env, issued: nat): RunState {
    MergeAll(RunState(existing, [], [], [], issued, []), GuidIndex(existing), batch, env)
  }
}
